=== FILE: README.md ===
# Decision-tree induction with special-case feature unlocking

This project models the tree-induction engine of the `DecisionTree` classifier in
`utils/decision_tree.py`, and proves properties of that model. The classifier builds a
classification tree from tabular rows that mix categorical and numerical features.

- At each node it scans the eligible features for the one of largest information gain. The scan
  starts at `min_impurity_decrease` and moves only on a strictly greater score.
- It records the node's statistics:
  - the number of samples;
  - the per-class distribution, in sorted class order;
  - the majority label.
- With at least `min_samples_split` rows, it splits the node and recurses into the parts:
  - a categorical feature gives one part per observed value;
  - a numerical feature gives two parts around an integer threshold.
- A special-case registry `{prerequisite: dependent(s)}` keeps each dependent out of the eligible
  list. A node that chooses a prerequisite makes its dependents eligible for its own subtree.

Modules, one file each:

- `wrappers.dfy` (`Wrappers`): `Option`, `Result`, and `Outcome` (pass or fail). They model
  Python's "returns or raises".
- `dataset.dfy` (`Dataset`):
  - rows are maps from feature name to a `Cat` or `Num` value, and labels are a parallel sequence;
  - the row selections of a split (`Branch`, the pandas `X[mask]`/`Y[mask]` pair);
  - multiset lemmas that show a split partitions the (row, label) pairs.
- `eligibility.dfy` (`Eligibility`):
  - the registry values (one name or a list of names);
  - the initial eligible list that `fit` builds (`InitialEligible`);
  - the update a node applies after choosing a feature (`Updated`);
  - the facts about dependents and popped keys that the tree proofs rest on.
- `statistics.dfy` (`Statistics`): node statistics (`NodeStatistics`) and the sorted class list.
- `gain.dfy` (`Gains`):
  - the numerical threshold scan (`NumericalInformationGain`);
  - the per-feature gain dispatch (`InformationGain`);
  - the best-feature scan (`SelectFeature`).
- `split.dfy` (`Splits`): the categorical and numerical splitters and the `_split` dispatch.
- `tree.dfy` (`Tree`):
  - the `Node` record;
  - the shared `Registry` object;
  - the `DecisionTree` class with `Fit` and the recursive `GenerateNode`. Lines 103-122 of
    `_generate_node` are factored into `Expand`, `UpdateEligible` and `GrowChildren`.

Modelling choices:

- **Entropy arithmetic is abstract.** It works on floating-point `log2` and is a `Criterion`: one
  function gives the gain of a categorical feature, another the gain of a numerical split at one
  threshold. The tree relies on one fact about it, `Sound`: a threshold that leaves one side
  empty gains nothing, because every entropy term of the formula is then zero. With that fact, a
  chosen numerical threshold puts rows on both sides. Both sides are then smaller than the node,
  which is what makes the recursion terminate.
- **The registry is shared.** It is a `Registry` object popped in place. Every
  `GenerateNode`/`Expand`/`GrowChildren` call `modifies` it. A later sibling sees the pops of
  earlier siblings, as in the source.
- **The eligible list is a value.** It is a `seq<string>`, so the copy at line 69 is implicit: no
  call can change its caller's list.
- **Exceptions are results.** An exception raised by the source is a `Fault`:
  - `MissingDependent` is `list.remove` of a name that is not present;
  - `NoMaximum` is `int()` of the NaN maximum of an empty numerical column;
  - `NotAFeature` is a split on a feature of neither kind.
- **A numerical gain without a threshold.** Its score is 0, so it wins only against a negative
  `min_impurity_decrease`. `_numerical_split` then compares the column with `None`. pandas answers
  False for every row, so both parts are empty (`NoThresholdSelectsNothing`). The first child then
  raises `NoMaximum` on its empty numerical column, so such a split never yields children.
- **Termination.** Each recursive step lowers, lexicographically:
  1. the number of rows;
  2. the set of registry keys;
  3. the number of categorical entries in the eligible list.

Two consequences of the code:

- `fit` hands the caller's `special_cases` dictionary to `_generate_node` itself, not a working
  copy, so the caller's registry is popped. `Fit` states which entries go: after training its keys
  are the old keys minus the non-empty split features of the tree
  (`registry.cases.Keys == old(registry.cases).Keys - (SplitFeatures(tree.value) - {""})`).
- The eligible list is copied at line 69, and line 111 appends to the choosing node's own copy.
  So unlocked dependents are eligible only in the subtree of the node that chose the prerequisite.
  The registry, however, is shared: the first node to choose a prerequisite pops it, and a later
  node choosing the same prerequisite, in another branch, unlocks nothing. `Fit` proves the
  per-path guarantee (`PrerequisiteAbove`): a node that splits on a dependent has, on its path
  from the root, an ancestor that splits on one of that dependent's prerequisites.

## Model

| member | source | states |
|---|---|---|
| Tree.DecisionTree.constructor | utils/decision_tree.py:22-25 | the hyperparameters are stored as given; nothing is trained yet |
| Tree.DecisionTree.Default | utils/decision_tree.py:22-25 | the default hyperparameters are `min_samples_split = 2`, `min_samples_leaf = 1` and `min_impurity_decrease = 0.05` |
| Tree.DecisionTree.Fit | utils/decision_tree.py:27-53 | records the feature names, the sorted classes and the feature kinds. Training fails with `MissingDependent` exactly when some dependent is not a column or is named twice; the tree is then left unchanged. Any other failure is `NoMaximum`. On success the root covers all rows, with their class distribution and majority label, and splits on the feature `Choice` selects from the columns without the dependents. The root has children iff that feature is not empty and there are at least `min_samples_split` rows; each child holds exactly the rows its edge selects, with their distribution and majority label, on one distinct `== v` edge per observed value or on `< t` and `>= t` for the gain's threshold `t`. No categorical feature repeats on a path, and every node's distribution sums to its samples and its children share out its rows. Every split feature is a column. The caller's registry loses exactly the keys that some node splits on (an empty name excepted), and a `MissingDependent` failure leaves it untouched. Finally, a node splits on a dependent only below an ancestor that splits on one of its prerequisites. With rows and a non-negative minimum, training cannot fail after the registry check. |
| Tree.DecisionTree.GenerateNode | utils/decision_tree.py:56-126 | the node records its edge, row count, class distribution and majority label. Its split feature is the one `Choice` selects. It has children iff a non-empty feature was chosen and there are at least `min_samples_split` rows. Each child holds exactly the rows its edge selects, with their distribution and majority label. A categorical split has one child per observed value, on distinct `== v` edges; a numerical split has the two children `< t` and `>= t` for the gain's threshold `t`. The registry only shrinks, and a chosen key is popped. No categorical feature repeats below its node. On every path the subtree splits only on eligible features or on dependents unlocked above. A node over an eligible numerical feature has rows. The only error is a missing maximum, and with rows and a non-negative minimum there is none. |
| Tree.DecisionTree.Expand | utils/decision_tree.py:103-122 | the chosen key is popped whether or not children are built. There are children iff the node has at least `min_samples_split` rows. Each child holds the rows its edge selects, with their distribution and label. The edges are one distinct `== v` per observed value, or `< t` and `>= t` for the gain's threshold. The children hold all of the node's rows. The only error is `NoMaximum`, and with a non-negative minimum there is none. |
| Tree.DecisionTree.UpdateEligible | utils/decision_tree.py:103-112 | the children's list is `Updated` of the node's list, and the registry loses exactly the chosen key |
| Tree.DecisionTree.GrowChildren | utils/decision_tree.py:114-122 | one child per part, in part order. Child `j` hangs on edge `j`, holds part `j`'s rows with their distribution and majority label, and sees the registry as earlier siblings left it. When the children's list holds a numerical feature, no part is empty. The only error is `NoMaximum`; with non-empty parts and a non-negative minimum no child fails. |
| Tree.Registry.constructor | utils/decision_tree.py:35-36 | the registry holds the given `{prerequisite: dependents}` entries |
| Tree.Registry.Pop | utils/decision_tree.py:110-112 | returns the dependents of the key and removes exactly that entry |
| Tree.ParentGrown | utils/decision_tree.py:103-122 | a node splitting on an eligible `f`, whose children grow from the updated list, splits on every path only on eligible features or dependents unlocked above. It has split on every key popped below it and repeats no categorical feature on a path. |
| Tree.PathAllowedWider | utils/decision_tree.py:69 | a subtree allowed under a smaller eligible set and a registry with more pops is allowed under a larger set and the earlier registry |
| Tree.PrerequisitesAbove | utils/decision_tree.py:43-51 | when the eligible features start without dependents, a tree that splits on each path only on eligible or unlocked features splits on a dependent only below one of its prerequisites |
| Tree.GrownAllStep | utils/decision_tree.py:118-122 | appending a child grown after its siblings keeps the siblings' invariant across both rounds of registry pops |
| Tree.ChildReady | utils/decision_tree.py:118-122 | each part of a split meets the node builder's preconditions whatever earlier siblings popped |
| Tree.BuiltStep | utils/decision_tree.py:118-122 | one more child, on the next edge with the next part's rows, distribution and label, extends the children built so far |
| Tree.BuiltSum | utils/decision_tree.py:114-122 | the children of a split that partitions the rows hold exactly the node's row count |
| Tree.BuiltRouted | utils/decision_tree.py:116-124 | each child of a routed split holds exactly the rows its edge condition selects, with their class distribution and majority label |
| Tree.BuiltOnSplit | utils/decision_tree.py:114-122 | children built in edge order hang on one distinct `== v` edge per observed value, or on `< t` and `>= t` for the gain's threshold |
| Tree.SplitSizes | utils/decision_tree.py:114-116 | a split on a selected feature succeeds with at least one part. A numerical part is smaller than the node. No part is empty for a categorical feature or a numerical one with a threshold. With a non-negative minimum a numerical gain has a threshold. |
| Tree.NumericalSplitSizes | utils/decision_tree.py:162-172 | at a threshold of positive gain both sides of the numerical split hold rows, fewer than the node |
| Tree.TypedColumns | utils/decision_tree.py:73-74 | every eligible feature is a column of the rows, numerical ones holding numbers |
| Tree.RoutedWithin | utils/decision_tree.py:154-170 | every part of a routed split holds only rows and labels of the node, and no more rows than it |
| Eligibility.InitialEligible | utils/decision_tree.py:43-51 | succeeds iff the dependents are distinct columns. It then returns the columns without the dependents, in order; otherwise it fails with `MissingDependent`. |
| Eligibility.Without | utils/decision_tree.py:43-51 | a name is kept iff it is in the list and not dropped |
| Eligibility.RemoveStep | utils/decision_tree.py:48-51 | one `list.remove` of a dependent turns the filtered list into the list filtered by one more name |
| Eligibility.MissingDependentFails | utils/decision_tree.py:48-51 | when `list.remove` finds no such name, some dependent is not a column or is named twice |
| Eligibility.RemoveFromWithout | utils/decision_tree.py:48 | removing a present name from a filtered list of distinct names is filtering it out too |
| Eligibility.WithoutDistinct | utils/decision_tree.py:43-51 | the initial eligible list has no repeats |
| Eligibility.DistinctAmongAddKey | utils/decision_tree.py:46-51 | a registry entry with new, distinct names keeps all dependents distinct |
| Eligibility.DepsOfAddKey | utils/decision_tree.py:46-51 | the dependents of one more key add that key's names |
| Eligibility.UpdateKeepsInvariants | utils/decision_tree.py:105-112 | the updated list has no repeats and names no dependent still locked. A categorical choice leaves it and a numerical one stays. Every other feature stays, and a consumed key's dependents each become eligible. A categorical choice that is not a key lowers the categorical count. |
| Eligibility.KeptFacts | utils/decision_tree.py:106-107 | removing a categorical choice drops exactly that name and lowers the categorical count |
| Eligibility.UnlockFacts | utils/decision_tree.py:109-112 | appending a popped key's dependents keeps the list free of repeats and disjoint from the dependents still locked |
| Eligibility.UpdateMembers | utils/decision_tree.py:105-111 | the updated list holds exactly the old names, minus a categorical choice, plus the unlocked dependents |
| Eligibility.CatCountRemove | utils/decision_tree.py:107 | removing a categorical feature lowers the categorical count by one |
| Eligibility.DepsWithoutKey | utils/decision_tree.py:112 | popping a key unlocks exactly its own names and keeps the other dependents distinct |
| Eligibility.SubmapFacts | utils/decision_tree.py:112 | a registry with entries popped keeps its dependents distinct and locks no new name |
| Eligibility.UnlockedChain | utils/decision_tree.py:112 | pops in two rounds unlock the union of the rounds, all dependents of the earlier registry |
| Eligibility.UnlockedByPop | utils/decision_tree.py:112 | popping `f` unlocks exactly `f`'s dependents |
| Eligibility.NotInWithout | utils/decision_tree.py:48 | filtering out an absent name changes nothing |
| Eligibility.DepsOfSubmap | utils/decision_tree.py:112 | a registry with entries popped names no more dependents for given keys than before |
| Eligibility.RemoveFirst | utils/decision_tree.py:107 | on a list that holds the name, `list.remove` shortens it by one; every other name stays and none is added |
| Eligibility.Updated | utils/decision_tree.py:105-112 | the children's list: a categorical choice is removed, every other eligible name stays, a chosen key's dependents are appended at the end one per entry, and nothing else enters |
| Eligibility.AppendDependentAsWritten | utils/decision_tree.py:111 | as written, a registry value adds exactly one entry at the end, whatever the number of its names |
| Eligibility.AsWrittenNestsList | utils/decision_tree.py:111 | as written, a list value is appended as one entry: the result differs from the intended list and names none of the newly unlocked dependents |
| Eligibility.AsWrittenAgreesOnOneName | utils/decision_tree.py:111 | for a single-name value the code as written appends exactly what `Updated` does |
| Statistics.NodeStatistics | utils/decision_tree.py:92-101 | the per-class counts in class order, and the label picked by the running maximum that starts at -1 |
| Statistics.MajorityIsFirstMostFrequent | utils/decision_tree.py:95-101 | the label is the first class of largest count. It exists iff there are classes, and for a subset without rows it is the first class. |
| Statistics.LeadIsFirstMaximum | utils/decision_tree.py:95-101 | the running maximum ends at the first position of the largest count |
| Statistics.SumOfDistribution | utils/decision_tree.py:96-98 | when the classes are distinct and cover the labels, the distribution sums to the number of samples |
| Statistics.SumIsCountIn | utils/decision_tree.py:96-98 | the distribution sums to the number of labels that fall in some class |
| Statistics.CountInAll | utils/decision_tree.py:96-98 | when the classes cover every label, every label is counted |
| Statistics.CountInAdd | utils/decision_tree.py:96-98 | one more class adds exactly that class's count |
| Statistics.SortedClasses | utils/decision_tree.py:39 | the class names are strictly increasing and are exactly the labels that occur |
| Statistics.Insert | utils/decision_tree.py:39 | inserting a label into a strictly increasing list keeps it strictly increasing; its members are those of the list plus the label |
| Gains.NumericalInformationGain | utils/decision_tree.py:213-233 | the threshold scan over `range(int(max))` equals `NumericalGain`; an empty subset fails with `NoMaximum` |
| Gains.ScanIsFirstBest | utils/decision_tree.py:215-231 | the scan's score is at least 0. It has a threshold iff some threshold's gain beats 0, and that threshold is the first one of largest gain. |
| Gains.NumericalGainFacts | utils/decision_tree.py:213-233 | fails iff there are no rows. Otherwise the threshold is below `max` with positive gain, or absent with score 0; a maximum below 1 gives `(0, None)`. |
| Gains.Trunc | utils/decision_tree.py:217 | `int()` truncates toward zero |
| Gains.MaxValue | utils/decision_tree.py:217 | the maximum is attained by some row and bounds every row |
| Gains.InformationGain | utils/decision_tree.py:174-196 | a categorical feature, checked first, gives its class-conditioned gain, or no gain on an empty subset. A numerical feature gives its threshold scan, which fails with `NoMaximum` exactly on an empty subset. A feature of neither kind gives no gain. |
| Gains.SelectFeature | utils/decision_tree.py:71-90 | the scan over the eligible features returns `Choice`: the first error raised, or the selection of `Best` |
| Gains.BestIsFirstMaximum | utils/decision_tree.py:71-90 | a feature is selected iff some gain beats the minimum. The selected one is the first of strictly largest score; otherwise nothing is selected and the score stays at the minimum. |
| Gains.ChosenFacts | utils/decision_tree.py:71-90 | a selected feature is eligible, beats the minimum and is of one of the two kinds, so the subset has rows; a numerical one carries its threshold scan |
| Gains.GainsFailOnlyWhenEmpty | utils/decision_tree.py:71-90 | selection can fail only on an empty subset, with `NoMaximum` |
| Gains.GainsFailureSticks | utils/decision_tree.py:73-74 | once one feature's gain raises, the whole scan raises that error |
| Gains.GainsAreFeatureGains | utils/decision_tree.py:73-74 | the gains scanned are the features' own gains, one by one |
| Gains.Gains | utils/decision_tree.py:73-74 | on success there is one gain per eligible feature |
| Gains.IntegerMinimumNeverSplits | utils/decision_tree.py:71-90 | as written, an integer `min_impurity_decrease` never selects any feature |
| Gains.FloatMinimumAgrees | utils/decision_tree.py:71-90 | as written, a float minimum selects exactly what `Best` selects |
| Gains.BestAsWritten | utils/decision_tree.py:71-90 | as written, the held value stays the configured minimum iff nothing is selected; a selected feature is an eligible one whose gain is held |
| Gains.GainsNeedRows | utils/decision_tree.py:213-217 | a scan over a list with a numerical feature succeeds only on a subset with rows |
| Splits.CategoricalSplit | utils/decision_tree.py:149-159 | one part per observed value, with that value on its edge. Each part holds exactly the rows (and labels) of that value; no part is empty, and the parts together hold every (row, label) pair once. |
| Splits.NumericalSplit | utils/decision_tree.py:162-172 | two parts, on the edges `< t` and `>= t`, holding exactly the rows each comparison selects. With a threshold they hold every (row, label) pair once; without one both are empty. |
| Splits.Split | utils/decision_tree.py:128-146 | dispatch by kind, categorical first. A categorical split has one non-empty part per observed value, on distinct `== v` edges. A numerical split is `NumericalSplit` at the gain's threshold. The parts partition the rows unless a numerical gain has no threshold. A feature of neither kind fails with `NotAFeature`. |
| Splits.ProgressStep | utils/decision_tree.py:154-157 | making the part of one more value keeps the categorical split's invariant |
| Splits.PositiveThresholdSplits | utils/decision_tree.py:164-168 | under a sound criterion, a threshold of positive gain leaves rows on both sides, fewer than all |
| Dataset.ThresholdPartition | utils/decision_tree.py:164-169 | every row of a numerical column goes to exactly one side of a threshold, with its label |
| Dataset.NoThresholdSelectsNothing | utils/decision_tree.py:164-169 | comparing a column with a missing threshold selects no row on either side |
| Dataset.AmongSplit | utils/decision_tree.py:155-156 | taking out the rows of one value leaves the rows of the remaining values |
| Dataset.AmongEverything | utils/decision_tree.py:154 | the observed values select every row |
| Dataset.AmongNothing | utils/decision_tree.py:154 | no values select no row |
| Dataset.ObservedBranchNonEmpty | utils/decision_tree.py:154-155 | an observed value selects at least one row |
| Dataset.GatherSize | utils/decision_tree.py:114-122 | the parts' (row, label) pairs number as many as their rows |
| Dataset.Branch | utils/decision_tree.py:155-156 | the selection holds rows of the subset that satisfy the edge, with as many labels as rows, no more than the subset |

## Left out

- The entropy and gain arithmetic is not modelled. `_categorical_feature_entropy`,
  `_numerical_feature_entropy` and `_categorical_information_gain` (lines 198-285) compute on
  floating point with `math.log2`. They are the abstract `Criterion`. `Sound` is the one property
  of the real formula that the model assumes.
- Gains.InformationGain: the categorical gain of an empty subset is modelled as "no gain".
  Python computes NaN there, or the integer 0 when there are no classes. Neither can win the
  `isinstance`/`<` comparisons of lines 75-90.
- The NaN warning prints of `_information_gain` (lines 186-188) are console output and are left out.
- Rendering (`render`, `_create_graph`, `_add_node`, lines 287-341) calls the external graphviz
  library and is left out.
- The `_counter` decorator (lines 10-17) only counts calls for render node names and is left out.
- pandas and numpy semantics are replaced by explicit sequences:
  - boolean masks become `Branch`/`Among`;
  - `.sum()` becomes `Count`;
  - `X.shape[0]` becomes `|rows|`;
  - `X.columns` becomes `columns`.
  Labels are integers and cell values are `Cat(string)` or `Num(real)`.
- Splits.CategoricalSplit: the order of the parts is left open, because it follows Python's set
  iteration order. The method picks each next value nondeterministically.
- Eligibility.InitialEligible: the registry entries are visited in an unspecified order. The
  result does not depend on the order for distinct columns, and the error carries no name.
- Edge labels are the `Edge` datatype (`Is(v)`, `Below(t)`, `AtLeast(t)`), not the strings
  `'< t'`/`'>= t'` that line 170 formats.
- `min_samples_leaf` is stored (line 24) but never read by the training code, so the model only
  stores it.
- Tree.DecisionTree.Fit:
  - the columns must be distinct. A pandas frame may repeat a label, but then `X[f]` is a frame and
    the `isnull().any()` test at line 186 raises, so the model admits only distinct columns;
  - every row must hold every column, with numbers in the numerical ones (no missing values);
  - when training raises, the assignment at line 53 does not happen and the old tree stays, as
    in the model. `feature_names` and `class_names` are already overwritten; the model states
    this. Registry entries may already be popped: the model states that the registry only
    shrinks on a `NoMaximum` failure, not which keys it lost.
- Tree.DecisionTree.GenerateNode: Python's `if best_feature:` is modelled as "the name is not
  empty". An empty-string feature name is the only falsy name.
- Registry values other than a string or a list of strings are ignored by lines 47-51; the model
  has no such values. A `None` or empty `special_cases` is the empty registry.
- Gains.SelectFeature: `min_impurity_decrease` is a real number. The code as written behaves
  differently for an integer value; this is modelled separately, see Findings.
- Eligibility.RemoveFirst: on an absent name it returns the list unchanged, where `list.remove`
  raises `ValueError`. Both callers remove only a name the list holds.
- Eligibility.Updated: a list value is unlocked name by name. The code as written appends the list
  as one entry; this is modelled separately, see Findings.

## Findings

| source | as written | input that shows it | evidently intended | confidence | as-written member | corrected member |
|---|---|---|---|---|---|---|
| utils/decision_tree.py:111 | `available_feature_names.append(special_cases[best_feature])` appends a list value as ONE element of the eligible list | `special_cases={'a': ['b', 'c']}` with `a` chosen: the list becomes `[..., ['b', 'c']]`, so `b` and `c` never become eligible, and the nested list is later passed to `X[...]` as a feature name | extend the list by each dependent, as `fit` does when it removes them (lines 49-51) | high (not executed) | Eligibility.AsWrittenNestsList | Eligibility.UpdateKeepsInvariants |
| utils/decision_tree.py:75-90 | the four branches compare only when `best_gain` is a `float` or a `tuple` | `DecisionTree(min_impurity_decrease=0)`: `best_gain` starts as an `int`, no branch applies, no feature is ever chosen and the tree is a single leaf | compare the score against any numeric minimum | high (not executed) | Gains.IntegerMinimumNeverSplits | Gains.BestIsFirstMaximum |

=== FILE: dataset.dfy ===
/**
 * The data a decision tree is trained on: rows of named cells with a parallel sequence of labels,
 * and the row selections the splitters make (pandas boolean masks in the original).
 */
module Dataset {
  import opened Wrappers

  /**
   * The exceptions the training code can raise, one constructor per cause:
   * `list.remove` of a dependent that is not eligible (ValueError), `int()` of the maximum of an empty
   * numerical column (ValueError), and a split on a feature that is neither categorical nor numerical
   * (UnboundLocalError).
   */
  datatype Fault = MissingDependent | NoMaximum(feature: string) | NotAFeature(feature: string)

  /** A cell of the table: a categorical symbol or a numerical scalar. */
  datatype Value = Cat(symbol: string) | Num(x: real)

  /** One data point: feature name to value. */
  type Row = map<string, Value>

  /** Class labels are totally ordered; they are modelled as integers. */
  type Label = int

  /**
   * The condition written on the edge into a child: `== v`, `< t` or `>= t`. The threshold of a
   * numerical edge is None when the gain found none.
   */
  datatype Edge = Is(value: Value) | Below(t: Option<int>) | AtLeast(t: Option<int>)

  /**
   * Whether a row is routed along the edge `e` of a split on feature `f`. pandas compares a column with
   * a missing scalar (None) as False for every row, so an edge without a threshold routes no row.
   */
  predicate Matches(row: Row, f: string, e: Edge)
  {
    f in row &&
    match e
    case Is(v) => row[f] == v
    case Below(t) => t.Some? && row[f].Num? && row[f].x < t.value as real
    case AtLeast(t) => t.Some? && row[f].Num? && row[f].x >= t.value as real
  }

  /**
   * The tree's two feature lists. A name in both is treated as categorical, because every dispatch in
   * the code tests the categorical list first.
   */
  datatype Kinds = Kinds(categorical: seq<string>, numerical: seq<string>)
  {
    predicate IsCategorical(f: string) { f in categorical }
    predicate IsNumerical(f: string) { f !in categorical && f in numerical }
  }

  /** Every row has the features `names`, and the numerical ones hold numbers. */
  predicate Typed(rows: seq<Row>, names: set<string>, kinds: Kinds)
  {
    forall r: Row, n: string | r in rows && n in names :: n in r && (kinds.IsNumerical(n) ==> r[n].Num?)
  }

  /** Every row has feature `f`. */
  predicate HasColumn(rows: seq<Row>, f: string)
  {
    forall r | r in rows :: f in r
  }

  /** Every row has feature `f`, and it holds a number. */
  predicate NumericColumn(rows: seq<Row>, f: string)
  {
    forall r: Row | r in rows :: f in r && r[f].Num?
  }

  /** The distinct values of feature `f` that occur in the rows (the Python `set(X[f])`). */
  function Observed(rows: seq<Row>, f: string): set<Value>
  {
    set r | r in rows && f in r :: r[f]
  }

  /** Rows and labels side by side, the pairs that a pandas index keeps aligned. */
  function Pairs(rows: seq<Row>, labels: seq<Label>): (p: seq<(Row, Label)>)
    requires |rows| == |labels|
    ensures |p| == |rows|
  {
    if rows == [] then [] else [(rows[0], labels[0])] + Pairs(rows[1..], labels[1..])
  }

  /**
   * The rows routed along edge `e`, with their labels, in their original order
   * (`X[mask]`, `Y[mask]` with the same mask).
   */
  function Branch(rows: seq<Row>, labels: seq<Label>, f: string, e: Edge): (b: (seq<Row>, seq<Label>))
    requires |rows| == |labels|
    ensures |b.0| == |b.1| <= |rows|
    ensures forall r | r in b.0 :: r in rows && Matches(r, f, e)
    ensures forall l | l in b.1 :: l in labels
  {
    if rows == [] then ([], [])
    else
      var rest := Branch(rows[1..], labels[1..], f, e);
      if Matches(rows[0], f, e) then ([rows[0]] + rest.0, [labels[0]] + rest.1) else rest
  }

  /** The rows whose value of `f` is one of `vals`, with their labels. */
  function Among(rows: seq<Row>, labels: seq<Label>, f: string, vals: set<Value>): (b: (seq<Row>, seq<Label>))
    requires |rows| == |labels|
    ensures |b.0| == |b.1|
  {
    if rows == [] then ([], [])
    else
      var rest := Among(rows[1..], labels[1..], f, vals);
      if f in rows[0] && rows[0][f] in vals then ([rows[0]] + rest.0, [labels[0]] + rest.1) else rest
  }

  /** The multiset union of the (row, label) pairs of several parts. */
  function Gather(xs: seq<seq<Row>>, ys: seq<seq<Label>>): multiset<(Row, Label)>
    requires |xs| == |ys|
    requires forall i | 0 <= i < |xs| :: |xs[i]| == |ys[i]|
  {
    if xs == [] then multiset{}
    else Gather(xs[..|xs| - 1], ys[..|ys| - 1]) + multiset(Pairs(xs[|xs| - 1], ys[|ys| - 1]))
  }

  /** Adding one more part adds its pairs. */
  lemma GatherSnoc(xs: seq<seq<Row>>, ys: seq<seq<Label>>, x: seq<Row>, y: seq<Label>)
    requires |xs| == |ys| && |x| == |y|
    requires forall i | 0 <= i < |xs| :: |xs[i]| == |ys[i]|
    ensures forall i | 0 <= i < |xs + [x]| :: |(xs + [x])[i]| == |(ys + [y])[i]|
    ensures Gather(xs + [x], ys + [y]) == Gather(xs, ys) + multiset(Pairs(x, y))
  {
    assert (xs + [x])[..|xs|] == xs && (ys + [y])[..|ys|] == ys;
  }

  /** The pairs of two parts. */
  lemma GatherTwo(x0: seq<Row>, y0: seq<Label>, x1: seq<Row>, y1: seq<Label>)
    requires |x0| == |y0| && |x1| == |y1|
    ensures Gather([x0, x1], [y0, y1]) == multiset(Pairs(x0, y0)) + multiset(Pairs(x1, y1))
  {
    assert [x0, x1][..1] == [x0] && [y0, y1][..1] == [y0];
    assert Gather([x0], [y0]) == multiset(Pairs(x0, y0)) by {
      assert [x0][..0] == [] && [y0][..0] == [];
    }
  }

  /** The total number of rows in several parts. */
  function TotalSize(xs: seq<seq<Row>>): nat
  {
    if xs == [] then 0 else TotalSize(xs[..|xs| - 1]) + |xs[|xs| - 1]|
  }

  /** Every row of a numeric column goes to exactly one side of a threshold, with its label. */
  lemma {:induction false} ThresholdPartition(rows: seq<Row>, labels: seq<Label>, f: string, t: int)
    requires |rows| == |labels| && NumericColumn(rows, f)
    ensures multiset(Pairs(rows, labels))
            == multiset(Pairs(Branch(rows, labels, f, Below(Some(t))).0, Branch(rows, labels, f, Below(Some(t))).1))
             + multiset(Pairs(Branch(rows, labels, f, AtLeast(Some(t))).0, Branch(rows, labels, f, AtLeast(Some(t))).1))
    ensures |Branch(rows, labels, f, Below(Some(t))).0| + |Branch(rows, labels, f, AtLeast(Some(t))).0| == |rows|
  {
    if rows != [] {
      ThresholdPartition(rows[1..], labels[1..], f, t);
    }
  }

  /** Without a threshold, neither side of a numerical split selects any row. */
  lemma {:induction false} NoThresholdSelectsNothing(rows: seq<Row>, labels: seq<Label>, f: string)
    requires |rows| == |labels|
    ensures Branch(rows, labels, f, Below(None)) == ([], [])
    ensures Branch(rows, labels, f, AtLeast(None)) == ([], [])
  {
    if rows != [] {
      NoThresholdSelectsNothing(rows[1..], labels[1..], f);
    }
  }

  /** Picking out the rows equal to one value `v` of `vals` leaves the rows whose value is among the rest. */
  lemma {:induction false} AmongSplit(rows: seq<Row>, labels: seq<Label>, f: string, vals: set<Value>, v: Value)
    requires |rows| == |labels| && v in vals
    ensures multiset(Pairs(Among(rows, labels, f, vals).0, Among(rows, labels, f, vals).1))
            == multiset(Pairs(Branch(rows, labels, f, Is(v)).0, Branch(rows, labels, f, Is(v)).1))
             + multiset(Pairs(Among(rows, labels, f, vals - {v}).0, Among(rows, labels, f, vals - {v}).1))
  {
    if rows != [] {
      AmongSplit(rows[1..], labels[1..], f, vals, v);
    }
  }

  /** When every value of `f` is among `vals`, the selection keeps every row. */
  lemma {:induction false} AmongEverything(rows: seq<Row>, labels: seq<Label>, f: string, vals: set<Value>)
    requires |rows| == |labels| && HasColumn(rows, f) && Observed(rows, f) <= vals
    ensures Among(rows, labels, f, vals) == (rows, labels)
  {
    if rows != [] {
      assert Observed(rows[1..], f) <= Observed(rows, f) by {
        forall w | w in Observed(rows[1..], f) ensures w in Observed(rows, f) {
          var r :| r in rows[1..] && f in r && r[f] == w;
          assert r in rows;
        }
      }
      assert rows[0] in rows;
      AmongEverything(rows[1..], labels[1..], f, vals);
      assert rows == [rows[0]] + rows[1..] && labels == [labels[0]] + labels[1..];
    }
  }

  /** No value selects no row. */
  lemma {:induction false} AmongNothing(rows: seq<Row>, labels: seq<Label>, f: string)
    requires |rows| == |labels|
    ensures Among(rows, labels, f, {}) == ([], [])
  {
    if rows != [] {
      AmongNothing(rows[1..], labels[1..], f);
    }
  }

  /** A value that occurs in the rows selects at least one of them. */
  lemma {:induction false} ObservedBranchNonEmpty(rows: seq<Row>, labels: seq<Label>, f: string, v: Value)
    requires |rows| == |labels| && v in Observed(rows, f)
    ensures |Branch(rows, labels, f, Is(v)).0| > 0
  {
    if !(f in rows[0] && rows[0][f] == v) {
      var r :| r in rows && f in r && r[f] == v;
      assert r in rows[1..];
      ObservedBranchNonEmpty(rows[1..], labels[1..], f, v);
    }
  }

  /** A multiset of pairs has one element per row. */
  lemma {:induction false} GatherSize(xs: seq<seq<Row>>, ys: seq<seq<Label>>)
    requires |xs| == |ys|
    requires forall i | 0 <= i < |xs| :: |xs[i]| == |ys[i]|
    ensures |Gather(xs, ys)| == TotalSize(xs)
  {
    if xs != [] {
      GatherSize(xs[..|xs| - 1], ys[..|ys| - 1]);
    }
  }
}

=== FILE: eligibility.dfy ===
/**
 * Which features a node may split on: the initial list that `fit` builds by removing every dependent of
 * the special-case registry, and the update a node applies after choosing its split feature
 * (a categorical feature is used up, a prerequisite unlocks its dependents).
 */
module Eligibility {
  import opened Wrappers
  import opened Dataset

  /** A registry value: one dependent feature name or a list of them. */
  datatype Dependents = One(name: string) | Many(names: seq<string>)

  /** The dependent names of a registry value, in order. */
  function Names(d: Dependents): seq<string>
  {
    match d
    case One(n) => [n]
    case Many(ns) => ns
  }

  function Elements(xs: seq<string>): set<string>
  {
    set x | x in xs
  }

  predicate Distinct(xs: seq<string>)
  {
    forall i, j | 0 <= i < j < |xs| :: xs[i] != xs[j]
  }

  /** The list without the names in `drop`, order otherwise kept. */
  function Without(xs: seq<string>, drop: set<string>): (r: seq<string>)
    ensures forall x :: x in r <==> x in xs && x !in drop
  {
    if xs == [] then []
    else if xs[0] in drop then Without(xs[1..], drop)
    else [xs[0]] + Without(xs[1..], drop)
  }

  /** Python's `list.remove(x)` on a list that holds `x`: its first occurrence goes. */
  function RemoveFirst(xs: seq<string>, x: string): (r: seq<string>)
    ensures |r| == if x in xs then |xs| - 1 else |xs|
    ensures forall y | y in r :: y in xs
    ensures forall y | y in xs && y != x :: y in r
  {
    if xs == [] then []
    else if xs[0] == x then xs[1..]
    else [xs[0]] + RemoveFirst(xs[1..], x)
  }

  /** The dependents of the registry entries whose keys are in `keys`. */
  ghost function DepsOf(cases: map<string, Dependents>, keys: set<string>): set<string>
  {
    set k, d | k in keys && k in cases && d in Names(cases[k]) :: d
  }

  /** Every dependent named anywhere in the registry. */
  ghost function DepSet(cases: map<string, Dependents>): set<string>
  {
    DepsOf(cases, cases.Keys)
  }

  /** The dependents of the keys consumed between two states of the registry. */
  ghost function Unlocked(before: map<string, Dependents>, after: map<string, Dependents>): set<string>
  {
    DepsOf(before, before.Keys - after.Keys)
  }

  /** No dependent is named twice among the entries with keys in `keys`. */
  ghost predicate DistinctAmong(cases: map<string, Dependents>, keys: set<string>)
  {
    (forall k | k in keys && k in cases :: Distinct(Names(cases[k]))) &&
    (forall k1, k2, d | k1 in keys && k2 in keys && k1 in cases && k2 in cases && k1 != k2 && d in Names(cases[k1]) ::
       d !in Names(cases[k2]))
  }

  ghost predicate DependentsDistinct(cases: map<string, Dependents>)
  {
    DistinctAmong(cases, cases.Keys)
  }

  /** The number of entries of the list that are categorical features. */
  function CatCount(xs: seq<string>, categorical: seq<string>): nat
  {
    if xs == [] then 0 else (if xs[0] in categorical then 1 else 0) + CatCount(xs[1..], categorical)
  }

  /**
   * The eligible list a node hands to its children after choosing `f`: a categorical `f` is removed,
   * and if `f` is a registry key its dependents are appended (each one as its own entry).
   */
  function Updated(eligible: seq<string>, f: string, categorical: seq<string>, cases: map<string, Dependents>): (r: seq<string>)
    ensures |r| == |eligible| - (if f in categorical && f in eligible then 1 else 0) + (if f in cases then |Names(cases[f])| else 0)
    ensures f in cases ==> r[|r| - |Names(cases[f])|..] == Names(cases[f])
    ensures forall x | x in eligible && x != f :: x in r
    ensures f in eligible && f !in categorical ==> f in r
    ensures forall x | x in r :: x in eligible || (f in cases && x in Names(cases[f]))
  {
    var kept := if f in categorical then RemoveFirst(eligible, f) else eligible;
    if f in cases then kept + Names(cases[f]) else kept
  }

  /**
   * The eligible list `fit` starts from: every column except the registry's dependents.
   * It fails as `list.remove` does when a dependent is not a column or is named twice.
   */
  method InitialEligible(columns: seq<string>, cases: map<string, Dependents>) returns (r: Result<seq<string>, Fault>)
    requires Distinct(columns)
    ensures r.Success? <==> DependentsDistinct(cases) && DepSet(cases) <= Elements(columns)
    ensures r.Success? ==> r.value == Without(columns, DepSet(cases))
    ensures r.Failure? ==> r.error == MissingDependent
  {
    var avail := columns;
    var pending := cases.Keys;
    ghost var done: set<string> := {};
    assert DepsOf(cases, done) == {};
    WithoutNothing(columns);
    while pending != {}
      invariant pending + done == cases.Keys && pending !! done
      invariant DistinctAmong(cases, done) && DepsOf(cases, done) <= Elements(columns)
      invariant avail == Without(columns, DepsOf(cases, done))
      decreases pending
    {
      var k :| k in pending;
      var names := Names(cases[k]);
      var j := 0;
      assert DepsOf(cases, done) + Elements(names[..j]) == DepsOf(cases, done);
      while j < |names|
        invariant 0 <= j <= |names|
        invariant Distinct(names[..j]) && Elements(names[..j]) <= Elements(columns)
        invariant Elements(names[..j]) !! DepsOf(cases, done)
        invariant avail == Without(columns, DepsOf(cases, done) + Elements(names[..j]))
      {
        if names[j] !in avail {
          MissingDependentFails(columns, cases, done, k, j);
          return Failure(MissingDependent);
        }
        RemoveStep(columns, DepsOf(cases, done), names, j);
        avail := RemoveFirst(avail, names[j]);
        j := j + 1;
      }
      assert names[..j] == names;
      DepsOfAddKey(cases, done, k);
      DistinctAmongAddKey(cases, done, k);
      done := done + {k};
      pending := pending - {k};
    }
    assert done == cases.Keys;
    return Success(avail);
  }

  lemma WithoutNothing(xs: seq<string>)
    ensures Without(xs, {}) == xs
  {
  }

  /** The dependents of one more key are those of the others plus its own names. */
  lemma DepsOfAddKey(cases: map<string, Dependents>, keys: set<string>, k: string)
    requires k in cases
    ensures DepsOf(cases, keys + {k}) == DepsOf(cases, keys) + Elements(Names(cases[k]))
  {
    forall d | d in DepsOf(cases, keys + {k}) ensures d in DepsOf(cases, keys) + Elements(Names(cases[k])) {
      var k' :| k' in keys + {k} && k' in cases && d in Names(cases[k']);
      if k' != k {
        assert d in DepsOf(cases, keys);
      }
    }
  }

  /** One `list.remove` of the fit loop keeps its invariant: the list is the columns minus what was removed. */
  lemma RemoveStep(columns: seq<string>, removed: set<string>, names: seq<string>, j: int)
    requires Distinct(columns) && 0 <= j < |names|
    requires Distinct(names[..j]) && Elements(names[..j]) <= Elements(columns) && Elements(names[..j]) !! removed
    requires names[j] in Without(columns, removed + Elements(names[..j]))
    ensures RemoveFirst(Without(columns, removed + Elements(names[..j])), names[j])
            == Without(columns, removed + Elements(names[..j + 1]))
    ensures Distinct(names[..j + 1]) && Elements(names[..j + 1]) <= Elements(columns)
    ensures Elements(names[..j + 1]) !! removed
  {
    assert names[..j + 1] == names[..j] + [names[j]];
    assert Elements(names[..j + 1]) == Elements(names[..j]) + {names[j]};
    RemoveFromWithout(columns, removed + Elements(names[..j]), names[j]);
    assert removed + Elements(names[..j + 1]) == removed + Elements(names[..j]) + {names[j]};
  }

  /** A key whose names are distinct and new keeps the registry's dependents distinct. */
  lemma DistinctAmongAddKey(cases: map<string, Dependents>, keys: set<string>, k: string)
    requires k in cases && k !in keys && DistinctAmong(cases, keys)
    requires Distinct(Names(cases[k])) && Elements(Names(cases[k])) !! DepsOf(cases, keys)
    ensures DistinctAmong(cases, keys + {k})
  {
    forall k1, k2, d | k1 in keys + {k} && k2 in keys + {k} && k1 in cases && k2 in cases && k1 != k2 && d in Names(cases[k1])
      ensures d !in Names(cases[k2])
    {
      if k1 == k {
        assert d in Elements(Names(cases[k]));
      } else if k2 == k {
        assert d in DepsOf(cases, keys);
      }
    }
  }

  /** Why `list.remove` failing means the registry is not a set of distinct column names. */
  lemma MissingDependentFails(columns: seq<string>, cases: map<string, Dependents>, done: set<string>, k: string, j: int)
    requires k in cases && k !in done && 0 <= j < |Names(cases[k])|
    requires Elements(Names(cases[k])[..j]) !! DepsOf(cases, done)
    requires Names(cases[k])[j] !in Without(columns, DepsOf(cases, done) + Elements(Names(cases[k])[..j]))
    ensures !(DependentsDistinct(cases) && DepSet(cases) <= Elements(columns))
  {
    var names := Names(cases[k]);
    var n := names[j];
    assert k in cases.Keys && n in Names(cases[k]);
    assert n in DepSet(cases);
    if n !in columns {
      assert !(DepSet(cases) <= Elements(columns));
    } else if n in Elements(names[..j]) {
      var i :| 0 <= i < j && names[i] == n;
      assert !Distinct(names);
    } else {
      assert n in DepsOf(cases, done);
      var k' :| k' in done && k' in cases && n in Names(cases[k']);
      assert k' != k;
      assert !DistinctAmong(cases, cases.Keys);
    }
  }

  /** Removing a present name from a filtered list of distinct names filters it out too. */
  lemma {:induction false} RemoveFromWithout(xs: seq<string>, drop: set<string>, x: string)
    requires Distinct(xs) && x in xs && x !in drop
    ensures RemoveFirst(Without(xs, drop), x) == Without(xs, drop + {x})
  {
    if xs[0] == x {
      assert x !in xs[1..];
      NotInWithout(xs[1..], drop, x);
    } else {
      RemoveFromWithout(xs[1..], drop, x);
      if xs[0] !in drop {
        assert Without(xs, drop) == [xs[0]] + Without(xs[1..], drop);
      }
    }
  }

  /** Filtering out a name that is absent changes nothing. */
  lemma {:induction false} NotInWithout(xs: seq<string>, drop: set<string>, x: string)
    requires x !in xs
    ensures Without(xs, drop) == Without(xs, drop + {x})
  {
    if xs != [] {
      NotInWithout(xs[1..], drop, x);
    }
  }

  /** Filtering keeps a list free of repeats. */
  lemma {:induction false} WithoutDistinct(xs: seq<string>, drop: set<string>)
    requires Distinct(xs)
    ensures Distinct(Without(xs, drop))
  {
    if xs != [] {
      WithoutDistinct(xs[1..], drop);
      assert xs[0] !in xs[1..];
    }
  }

  /** Removing an occurrence of a categorical feature lowers the categorical count by one. */
  lemma {:induction false} CatCountRemove(xs: seq<string>, x: string, categorical: seq<string>)
    requires x in xs
    ensures CatCount(RemoveFirst(xs, x), categorical) == CatCount(xs, categorical) - (if x in categorical then 1 else 0)
  {
    if xs[0] != x {
      CatCountRemove(xs[1..], x, categorical);
    }
  }

  lemma DistinctConcat(xs: seq<string>, ys: seq<string>)
    requires Distinct(xs) && Distinct(ys) && Elements(xs) !! Elements(ys)
    ensures Distinct(xs + ys)
  {
    forall i, j | 0 <= i < j < |xs + ys| ensures (xs + ys)[i] != (xs + ys)[j] {
      if i < |xs| && j >= |xs| {
        assert (xs + ys)[i] in Elements(xs) && (xs + ys)[j] in Elements(ys);
      }
    }
  }

  /** Dropping a key from the registry drops no other key's dependents. */
  lemma DepsWithoutKey(cases: map<string, Dependents>, f: string)
    requires f in cases && DependentsDistinct(cases)
    ensures DepSet(cases - {f}) == DepSet(cases) - Elements(Names(cases[f]))
    ensures DepsOf(cases, {f}) == Elements(Names(cases[f]))
    ensures DependentsDistinct(cases - {f})
  {
    forall d | d in DepSet(cases - {f}) ensures d in DepSet(cases) - Elements(Names(cases[f])) {
      var k :| k in cases - {f} && d in Names((cases - {f})[k]);
      assert k in cases.Keys && d in Names(cases[k]);
    }
    forall d | d in DepSet(cases) - Elements(Names(cases[f])) ensures d in DepSet(cases - {f}) {
      var k :| k in cases && d in Names(cases[k]);
      assert k != f;
      assert k in (cases - {f}).Keys && (cases - {f})[k] == cases[k];
      assert d in Names((cases - {f})[k]);
    }
    forall d | d in Elements(Names(cases[f])) ensures d in DepsOf(cases, {f}) {
      assert f in {f} && d in Names(cases[f]);
    }
  }

  /**
   * What the eligibility update does and keeps: the list stays free of repeats and disjoint from the
   * dependents still locked; a categorical choice is used up, a numerical one stays, every other
   * feature stays, and a consumed key's dependents each become eligible. When no key is consumed, a
   * categorical choice lowers the number of categorical entries.
   */
  lemma UpdateKeepsInvariants(eligible: seq<string>, f: string, categorical: seq<string>, cases: map<string, Dependents>)
    requires Distinct(eligible) && DependentsDistinct(cases) && Elements(eligible) !! DepSet(cases) && f in eligible
    ensures var u := Updated(eligible, f, categorical, cases);
      && Distinct(u)
      && DependentsDistinct(cases - {f})
      && Elements(u) !! DepSet(cases - {f})
      && Elements(u) <= Elements(eligible) + DepsOf(cases, {f})
      && DepsOf(cases, {f}) <= DepSet(cases)
      && (f in categorical <==> f !in u)
      && (forall x | x in eligible && x != f :: x in u)
      && (f in cases ==> Elements(Names(cases[f])) <= Elements(u))
      && (f !in cases && f in categorical ==> CatCount(u, categorical) < CatCount(eligible, categorical))
  {
    var kept := if f in categorical then RemoveFirst(eligible, f) else eligible;
    KeptFacts(eligible, f, categorical);
    UnlockFacts(kept, f, cases);
    UpdateMembers(eligible, f, categorical, cases, kept);
  }

  /** Which names the updated list holds, given the two halves of the update. */
  lemma UpdateMembers(eligible: seq<string>, f: string, categorical: seq<string>, cases: map<string, Dependents>, kept: seq<string>)
    requires kept == if f in categorical then RemoveFirst(eligible, f) else eligible
    requires f in eligible && Elements(eligible) !! DepSet(cases)
    requires Elements(kept) == Elements(eligible) - (if f in categorical then {f} else {})
    requires DepsOf(cases, {f}) <= DepSet(cases)
    requires Elements(Updated(eligible, f, categorical, cases)) == Elements(kept) + DepsOf(cases, {f})
    requires f in cases ==> DepsOf(cases, {f}) == Elements(Names(cases[f]))
    ensures var u := Updated(eligible, f, categorical, cases);
      && Elements(u) <= Elements(eligible) + DepsOf(cases, {f})
      && (f in categorical <==> f !in u)
      && (forall x | x in eligible && x != f :: x in u)
      && (f in cases ==> Elements(Names(cases[f])) <= Elements(u))
  {
    var u := Updated(eligible, f, categorical, cases);
    forall x | x in eligible && x != f ensures x in u {
      assert x in Elements(kept);
      assert x in Elements(u);
    }
    assert f in Elements(eligible);
    assert f in u <==> f in Elements(u);
  }

  /** The second half of the update: appending a consumed key's dependents. */
  lemma UnlockFacts(kept: seq<string>, f: string, cases: map<string, Dependents>)
    requires Distinct(kept) && DependentsDistinct(cases) && Elements(kept) !! DepSet(cases)
    ensures var u := if f in cases then kept + Names(cases[f]) else kept;
      && Distinct(u)
      && DependentsDistinct(cases - {f})
      && Elements(u) !! DepSet(cases - {f})
      && Elements(u) == Elements(kept) + DepsOf(cases, {f})
      && DepsOf(cases, {f}) <= DepSet(cases)
      && (f in cases ==> DepsOf(cases, {f}) == Elements(Names(cases[f])))
  {
    if f in cases {
      DepsWithoutKey(cases, f);
      var names := Names(cases[f]);
      assert Elements(names) <= DepSet(cases) by {
        forall d | d in Elements(names) ensures d in DepSet(cases) {
          assert f in cases.Keys && d in Names(cases[f]);
        }
      }
      DistinctConcat(kept, names);
      assert Elements(kept + names) == Elements(kept) + Elements(names);
    } else {
      assert DepsOf(cases, {f}) == {};
      assert cases - {f} == cases;
    }
  }

  /** The first half of the update: removing a categorical choice from a list without repeats. */
  lemma KeptFacts(eligible: seq<string>, f: string, categorical: seq<string>)
    requires Distinct(eligible) && f in eligible
    ensures var kept := if f in categorical then RemoveFirst(eligible, f) else eligible;
      && Distinct(kept)
      && Elements(kept) == Elements(eligible) - (if f in categorical then {f} else {})
      && (f in categorical ==> CatCount(kept, categorical) < CatCount(eligible, categorical))
  {
    if f in categorical {
      WithoutNothing(eligible);
      RemoveFromWithout(eligible, {}, f);
      assert {} + {f} == {f};
      assert RemoveFirst(eligible, f) == Without(eligible, {f});
      WithoutDistinct(eligible, {f});
      CatCountRemove(eligible, f, categorical);
    }
  }

  /** `a` is the registry `b` with some entries popped. */
  ghost predicate Submap(a: map<string, Dependents>, b: map<string, Dependents>)
  {
    a.Keys <= b.Keys && forall k | k in a :: a[k] == b[k]
  }

  /** Popping entries keeps the dependents distinct and only shrinks the set of locked dependents. */
  lemma SubmapFacts(a: map<string, Dependents>, b: map<string, Dependents>)
    requires Submap(a, b) && DependentsDistinct(b)
    ensures DependentsDistinct(a) && DepSet(a) <= DepSet(b)
  {
    forall d | d in DepSet(a) ensures d in DepSet(b) {
      var k :| k in a.Keys && k in a && d in Names(a[k]);
      assert k in b.Keys && d in Names(b[k]);
    }
  }

  /** A registry with entries popped names no more dependents for the same keys. */
  lemma DepsOfSubmap(a: map<string, Dependents>, b: map<string, Dependents>, keys: set<string>)
    requires Submap(a, b)
    ensures DepsOf(a, keys) <= DepsOf(b, keys)
  {
    forall d | d in DepsOf(a, keys) ensures d in DepsOf(b, keys) {
      var k :| k in keys && k in a && d in Names(a[k]);
      assert k in b && b[k] == a[k];
    }
  }

  /**
   * Pops done in two rounds unlock what the two rounds unlock together, and every unlocked name was a
   * dependent of the earlier registry.
   */
  lemma UnlockedChain(c1: map<string, Dependents>, c2: map<string, Dependents>, c3: map<string, Dependents>)
    requires Submap(c2, c1) && Submap(c3, c2)
    ensures Submap(c3, c1)
    ensures Unlocked(c1, c3) == Unlocked(c1, c2) + Unlocked(c2, c3)
    ensures Unlocked(c1, c3) <= DepSet(c1)
  {
    forall d | d in Unlocked(c1, c3) ensures d in Unlocked(c1, c2) + Unlocked(c2, c3) && d in DepSet(c1) {
      var k :| k in c1.Keys - c3.Keys && k in c1 && d in Names(c1[k]);
      assert k in c1.Keys;
      if k in c2 {
        assert k in c2.Keys - c3.Keys && d in Names(c2[k]);
      } else {
        assert k in c1.Keys - c2.Keys;
      }
    }
    forall d | d in Unlocked(c2, c3) ensures d in Unlocked(c1, c3) {
      var k :| k in c2.Keys - c3.Keys && k in c2 && d in Names(c2[k]);
      assert k in c1.Keys - c3.Keys && d in Names(c1[k]);
    }
    forall d | d in Unlocked(c1, c2) ensures d in Unlocked(c1, c3) {
      var k :| k in c1.Keys - c2.Keys && k in c1 && d in Names(c1[k]);
      assert k in c1.Keys - c3.Keys;
    }
  }

  /** Popping the key `f` unlocks exactly its own dependents. */
  lemma UnlockedByPop(cases: map<string, Dependents>, f: string)
    ensures Submap(cases - {f}, cases)
    ensures Unlocked(cases, cases - {f}) == DepsOf(cases, {f})
  {
    assert cases.Keys - (cases - {f}).Keys == cases.Keys * {f};
    forall d | d in DepsOf(cases, {f}) ensures d in Unlocked(cases, cases - {f}) {
      assert f in cases.Keys * {f};
    }
  }

  /** An entry of the eligible list as line 111 can leave it: a feature name, or a whole list of names. */
  datatype Entry = Feature(name: string) | Listed(names: seq<string>)

  /** A list of feature names as entries. */
  function AsEntries(names: seq<string>): (r: seq<Entry>)
    ensures |r| == |names| && forall i | 0 <= i < |names| :: r[i] == Feature(names[i])
  {
    if names == [] then [] else [Feature(names[0])] + AsEntries(names[1..])
  }

  /** Unlocking as written: `list.append(special_cases[key])` adds the registry value as ONE entry. */
  function AppendDependentAsWritten(avail: seq<Entry>, d: Dependents): (r: seq<Entry>)
    ensures |r| == |avail| + 1 && r[..|avail|] == avail
  {
    match d
    case One(n) => avail + [Feature(n)]
    case Many(ns) => avail + [Listed(ns)]
  }

  /** For a single dependent name, appending as written is exactly the unlocking of `Updated`. */
  lemma AsWrittenAgreesOnOneName(kept: seq<string>, n: string)
    ensures AppendDependentAsWritten(AsEntries(kept), One(n)) == AsEntries(kept + Names(One(n)))
  {
    assert AsEntries(kept + [n]) == AsEntries(kept) + [Feature(n)];
  }

  /**
   * For a list value the code as written never yields the intended list: the list itself becomes one
   * entry that names no column, and a dependent that was not eligible before is still not eligible
   * as a feature of its own.
   */
  lemma AsWrittenNestsList(kept: seq<string>, ns: seq<string>)
    ensures var w := AppendDependentAsWritten(AsEntries(kept), Many(ns));
      && w != AsEntries(kept + ns)
      && Listed(ns) in w
      && forall n | n in ns && n !in kept :: Feature(n) !in w
  {
    var w := AppendDependentAsWritten(AsEntries(kept), Many(ns));
    if ns == [] {
      assert |w| != |AsEntries(kept + ns)|;
    } else {
      assert w[|w| - 1] == Listed(ns) && AsEntries(kept + ns)[|w| - 1] == Feature((kept + ns)[|w| - 1]);
    }
    assert w[|kept|] == Listed(ns);
    forall n, i | n in ns && n !in kept && 0 <= i < |w| ensures w[i] != Feature(n) {
      if i < |kept| {
        assert w[i] == Feature(kept[i]) && kept[i] in kept;
      }
    }
  }
}

=== FILE: gain.dfy ===
/**
 * Choosing the split feature of a node: the gain of each eligible feature (the entropy arithmetic is an
 * abstract criterion), the integer-threshold scan of a numerical feature, and the running maximum over
 * the eligible features that starts at `min_impurity_decrease`.
 */
module Gains {
  import opened Wrappers
  import opened Dataset

  /**
   * The information gain of a feature: a plain score for a categorical feature, a (score, threshold)
   * pair for a numerical one. Features are compared by their score alone.
   */
  datatype Gain = Scalar(score: real) | Pair(score: real, threshold: Option<int>)

  /**
   * The entropy arithmetic, which works on floating-point `log2` and is not modelled: the class-conditioned
   * gain of a categorical feature, and the gain of splitting a numerical feature at one threshold.
   */
  datatype Criterion = Criterion(
    categorical: (seq<Row>, seq<Label>, string) -> real,
    threshold: (seq<Row>, seq<Label>, string, int) -> real)

  /**
   * The one fact about the numerical gain that the tree relies on: a threshold that leaves one side
   * empty gains nothing, since every entropy term of the formula is then zero.
   */
  ghost predicate Sound(crit: Criterion)
  {
    forall rows: seq<Row>, labels: seq<Label>, f: string, t: int
      | |rows| == |labels| && (|Branch(rows, labels, f, Below(Some(t))).0| == 0 || |Branch(rows, labels, f, AtLeast(Some(t))).0| == 0)
      :: crit.threshold(rows, labels, f, t) <= 0.0
  }

  /** Python's `int()` of a float: truncation toward zero. */
  function Trunc(x: real): (n: int)
    ensures x >= 0.0 ==> n as real <= x < n as real + 1.0
    ensures x < 0.0 ==> n as real - 1.0 < x <= n as real
  {
    if x >= 0.0 then x.Floor else -((-x).Floor)
  }

  /** The largest value of a numerical feature over the rows (pandas `max`). */
  function MaxValue(rows: seq<Row>, f: string): (m: real)
    requires |rows| > 0 && NumericColumn(rows, f)
    ensures exists i | 0 <= i < |rows| :: rows[i][f].x == m
    ensures forall i | 0 <= i < |rows| :: rows[i][f].x <= m
  {
    var first := rows[0];
    assert first in rows;
    if |rows| == 1 then first[f].x
    else
      assert NumericColumn(rows[1..], f) by {
        forall r: Row | r in rows[1..] ensures f in r && r[f].Num? {
          assert r in rows;
        }
      }
      var rest := MaxValue(rows[1..], f);
      assert forall i | 1 <= i < |rows| :: rows[i] == rows[1..][i - 1];
      if first[f].x < rest then rest else first[f].x
  }

  /** The number of thresholds tried for a numerical feature: `range(int(max))`. */
  function ThresholdCount(rows: seq<Row>, f: string): nat
    requires |rows| > 0 && NumericColumn(rows, f)
  {
    var n := Trunc(MaxValue(rows, f));
    if n < 0 then 0 else n
  }

  /**
   * The running best of lines 215-231 after trying thresholds 0 .. k-1: the score starts at 0 with no
   * threshold, and a threshold replaces the best only when its gain is strictly greater.
   */
  function Scan(crit: Criterion, rows: seq<Row>, labels: seq<Label>, f: string, k: nat): Gain
  {
    if k == 0 then Pair(0.0, None)
    else
      var prev := Scan(crit, rows, labels, f, k - 1);
      var g := crit.threshold(rows, labels, f, k - 1);
      if prev.score < g then Pair(g, Some(k - 1)) else prev
  }

  /** `_numerical_information_gain`: fails on an empty subset, where `int()` of the missing maximum raises. */
  function NumericalGain(crit: Criterion, rows: seq<Row>, labels: seq<Label>, f: string): Result<Gain, Fault>
    requires NumericColumn(rows, f)
  {
    if |rows| == 0 then Failure(NoMaximum(f)) else Success(Scan(crit, rows, labels, f, ThresholdCount(rows, f)))
  }

  /** Lines 213-233: the threshold scan, tried in increasing order. */
  method NumericalInformationGain(crit: Criterion, rows: seq<Row>, labels: seq<Label>, f: string) returns (r: Result<Gain, Fault>)
    requires |rows| == |labels| && NumericColumn(rows, f)
    ensures r == NumericalGain(crit, rows, labels, f)
  {
    if |rows| == 0 {
      return Failure(NoMaximum(f));
    }
    var n := Trunc(MaxValue(rows, f));
    var bestGain := 0.0;
    var bestThreshold: Option<int> := None;
    var t := 0;
    while t < n
      invariant 0 <= t && (t <= n || t == 0)
      invariant Pair(bestGain, bestThreshold) == Scan(crit, rows, labels, f, t)
    {
      var gain := crit.threshold(rows, labels, f, t);
      if bestGain < gain {
        bestGain := gain;
        bestThreshold := Some(t);
      }
      t := t + 1;
    }
    assert t == ThresholdCount(rows, f);
    return Success(Pair(bestGain, bestThreshold));
  }

  /**
   * The scan keeps the first strictly best threshold: its score is never negative, there is a
   * threshold exactly when some gain beats 0, and then it is the earliest threshold of largest gain.
   */
  lemma {:induction false} ScanIsFirstBest(crit: Criterion, rows: seq<Row>, labels: seq<Label>, f: string, k: nat)
    ensures var g := Scan(crit, rows, labels, f, k);
      && g.Pair?
      && g.score >= 0.0
      && (g.threshold.None? <==> forall t | 0 <= t < k :: crit.threshold(rows, labels, f, t) <= 0.0)
      && (g.threshold.None? ==> g.score == 0.0)
      && (g.threshold.Some? ==>
            && 0 <= g.threshold.value < k
            && g.score == crit.threshold(rows, labels, f, g.threshold.value)
            && (forall t | 0 <= t < g.threshold.value :: crit.threshold(rows, labels, f, t) < g.score)
            && (forall t | 0 <= t < k :: crit.threshold(rows, labels, f, t) <= g.score))
  {
    if k > 0 {
      ScanIsFirstBest(crit, rows, labels, f, k - 1);
    }
  }

  /**
   * The numerical gain of a non-empty subset: a pair whose score is at least 0, with a threshold
   * `t < int(max)` whose gain is positive, or no threshold and score 0. A maximum below 1 tries no
   * threshold at all.
   */
  lemma NumericalGainFacts(crit: Criterion, rows: seq<Row>, labels: seq<Label>, f: string)
    requires NumericColumn(rows, f)
    ensures NumericalGain(crit, rows, labels, f).Failure? <==> |rows| == 0
    ensures |rows| > 0 ==>
      var g := NumericalGain(crit, rows, labels, f).value;
      && g.Pair? && g.score >= 0.0
      && (g.threshold.None? ==> g.score == 0.0)
      && (g.threshold.Some? ==>
            && 0 <= g.threshold.value && (g.threshold.value as real) + 1.0 <= MaxValue(rows, f)
            && crit.threshold(rows, labels, f, g.threshold.value) == g.score > 0.0)
      && (MaxValue(rows, f) < 1.0 ==> g == Pair(0.0, None))
  {
    if |rows| > 0 {
      ScanIsFirstBest(crit, rows, labels, f, ThresholdCount(rows, f));
    }
  }

  /**
   * `_information_gain` for one feature: None when the code's comparisons can never select it — a
   * feature in neither list (gain None) or a categorical feature of an empty subset (NaN, or the integer
   * 0 when there are no classes).
   */
  function FeatureGain(crit: Criterion, kinds: Kinds, rows: seq<Row>, labels: seq<Label>, f: string): Result<Option<Gain>, Fault>
    requires kinds.IsNumerical(f) ==> NumericColumn(rows, f)
  {
    if kinds.IsCategorical(f) then
      if |rows| == 0 then Success(None) else Success(Some(Scalar(crit.categorical(rows, labels, f))))
    else if kinds.IsNumerical(f) then
      match NumericalGain(crit, rows, labels, f)
      case Failure(e) => Failure(e)
      case Success(g) => Success(Some(g))
    else Success(None)
  }

  /** Lines 174-196: the gain of one feature, by its kind. */
  method InformationGain(crit: Criterion, kinds: Kinds, rows: seq<Row>, labels: seq<Label>, f: string) returns (r: Result<Option<Gain>, Fault>)
    requires |rows| == |labels|
    requires kinds.IsNumerical(f) ==> NumericColumn(rows, f)
    ensures r == FeatureGain(crit, kinds, rows, labels, f)
    ensures kinds.IsCategorical(f) && |rows| == 0 ==> r == Success(None)
    ensures kinds.IsCategorical(f) && |rows| > 0 ==> r == Success(Some(Scalar(crit.categorical(rows, labels, f))))
    ensures kinds.IsNumerical(f) ==>
      && (r.Failure? <==> |rows| == 0)
      && (r.Failure? ==> r.error == NoMaximum(f))
      && (r.Success? ==> r.value.Some? && r.value.value.Pair? && r.value.value.score >= 0.0)
    ensures !kinds.IsCategorical(f) && !kinds.IsNumerical(f) ==> r == Success(None)
  {
    if kinds.IsNumerical(f) {
      NumericalGainFacts(crit, rows, labels, f);
    }
    if kinds.IsCategorical(f) {
      if |rows| == 0 {
        return Success(None);
      }
      return Success(Some(Scalar(crit.categorical(rows, labels, f))));
    } else if kinds.IsNumerical(f) {
      var g := NumericalInformationGain(crit, rows, labels, f);
      if g.Failure? {
        return Failure(g.error);
      }
      return Success(Some(g.value));
    }
    return Success(None);
  }

  /** The numerical features of a list have numbers in every row. */
  predicate NumericColumns(rows: seq<Row>, names: seq<string>, kinds: Kinds)
  {
    forall n | n in names && kinds.IsNumerical(n) :: NumericColumn(rows, n)
  }

  /** The gains of the features in order, or the error of the first feature whose gain fails. */
  function Gains(crit: Criterion, kinds: Kinds, rows: seq<Row>, labels: seq<Label>, names: seq<string>): (r: Result<seq<Option<Gain>>, Fault>)
    requires NumericColumns(rows, names, kinds)
    ensures r.Success? ==> |r.value| == |names|
  {
    if names == [] then Success([])
    else
      var last := names[|names| - 1];
      assert last in names;
      assert NumericColumns(rows, names[..|names| - 1], kinds) by {
        forall n | n in names[..|names| - 1] && kinds.IsNumerical(n) ensures NumericColumn(rows, n) {
          assert n in names;
        }
      }
      match Gains(crit, kinds, rows, labels, names[..|names| - 1])
      case Failure(e) => Failure(e)
      case Success(gs) =>
        match FeatureGain(crit, kinds, rows, labels, last)
        case Failure(e) => Failure(e)
        case Success(g) => Success(gs + [g])
  }

  /** The running maximum of lines 71-90: the best score so far and the feature that reached it. */
  datatype Running = Running(score: real, choice: Option<(string, Gain)>)

  /** The running maximum after the first |names| features: a gain replaces the best only when strictly greater. */
  function Best(names: seq<string>, gains: seq<Option<Gain>>, start: real): Running
    requires |names| == |gains|
  {
    if names == [] then Running(start, None)
    else
      var prev := Best(names[..|names| - 1], gains[..|gains| - 1], start);
      var g := gains[|gains| - 1];
      if g.Some? && prev.score < g.value.score then Running(g.value.score, Some((names[|names| - 1], g.value)))
      else prev
  }

  /** The chosen feature of a node, with its gain, or the error raised while computing the gains. */
  function Choice(crit: Criterion, kinds: Kinds, start: real, rows: seq<Row>, labels: seq<Label>, names: seq<string>): Result<Option<(string, Gain)>, Fault>
    requires NumericColumns(rows, names, kinds)
  {
    match Gains(crit, kinds, rows, labels, names)
    case Failure(e) => Failure(e)
    case Success(gs) => Success(Best(names, gs, start).choice)
  }

  /** Lines 71-90: the scan over the eligible features for the best one. */
  method SelectFeature(crit: Criterion, kinds: Kinds, start: real, rows: seq<Row>, labels: seq<Label>, names: seq<string>)
    returns (r: Result<Option<(string, Gain)>, Fault>)
    requires |rows| == |labels| && NumericColumns(rows, names, kinds)
    ensures r == Choice(crit, kinds, start, rows, labels, names)
  {
    var bestGain := start;
    var bestFeature: Option<(string, Gain)> := None;
    ghost var gains: seq<Option<Gain>> := [];
    for i := 0 to |names|
      invariant Gains(crit, kinds, rows, labels, names[..i]) == Success(gains)
      invariant Best(names[..i], gains, start) == Running(bestGain, bestFeature)
    {
      var f := names[i];
      assert names[..i + 1][..i] == names[..i] && names[..i + 1][i] == f;
      var g := InformationGain(crit, kinds, rows, labels, f);
      if g.Failure? {
        GainsFailAt(crit, kinds, rows, labels, names, i);
        return Failure(g.error);
      }
      if g.value.Some? && bestGain < g.value.value.score {
        bestGain := g.value.value.score;
        bestFeature := Some((f, g.value.value));
      }
      gains := gains + [g.value];
      assert gains[..i] == gains[..|gains| - 1];
    }
    assert names[..|names|] == names;
    r := Success(bestFeature);
  }

  /** When the features before position i all have gains and the one at i fails, the gains of the whole list fail with its error. */
  lemma GainsFailAt(crit: Criterion, kinds: Kinds, rows: seq<Row>, labels: seq<Label>, names: seq<string>, i: nat)
    requires NumericColumns(rows, names, kinds) && i < |names|
    requires Gains(crit, kinds, rows, labels, names[..i]).Success?
    requires FeatureGain(crit, kinds, rows, labels, names[i]).Failure?
    ensures Gains(crit, kinds, rows, labels, names) == Failure(FeatureGain(crit, kinds, rows, labels, names[i]).error)
  {
    assert names[..i + 1][..i] == names[..i] && names[..i + 1][i] == names[i];
    assert NumericColumns(rows, names[..i + 1], kinds) by {
      forall n | n in names[..i + 1] && kinds.IsNumerical(n) ensures NumericColumn(rows, n) {
        assert n in names;
      }
    }
    assert Gains(crit, kinds, rows, labels, names[..i + 1]) == Failure(FeatureGain(crit, kinds, rows, labels, names[i]).error);
    GainsFailureSticks(crit, kinds, rows, labels, names, i + 1);
  }

  /** Once the gain of some feature fails, the gains of the whole list fail with that error. */
  lemma {:induction false} GainsFailureSticks(crit: Criterion, kinds: Kinds, rows: seq<Row>, labels: seq<Label>, names: seq<string>, i: nat)
    requires NumericColumns(rows, names, kinds) && i <= |names|
    requires NumericColumns(rows, names[..i], kinds)
    requires Gains(crit, kinds, rows, labels, names[..i]).Failure?
    ensures Gains(crit, kinds, rows, labels, names) == Gains(crit, kinds, rows, labels, names[..i])
    decreases |names| - i
  {
    if i < |names| {
      assert names[..i + 1][..i] == names[..i];
      assert NumericColumns(rows, names[..i + 1], kinds) by {
        forall n | n in names[..i + 1] && kinds.IsNumerical(n) ensures NumericColumn(rows, n) {
          assert n in names;
        }
      }
      GainsFailureSticks(crit, kinds, rows, labels, names, i + 1);
    } else {
      assert names[..i] == names;
    }
  }

  /** The gains of a list are the gains of its features, one by one. */
  lemma {:induction false} GainsAreFeatureGains(crit: Criterion, kinds: Kinds, rows: seq<Row>, labels: seq<Label>, names: seq<string>)
    requires NumericColumns(rows, names, kinds)
    requires Gains(crit, kinds, rows, labels, names).Success?
    ensures var gs := Gains(crit, kinds, rows, labels, names).value;
      forall i | 0 <= i < |names| :: FeatureGain(crit, kinds, rows, labels, names[i]) == Success(gs[i])
  {
    if names != [] {
      var init := names[..|names| - 1];
      assert NumericColumns(rows, init, kinds) by {
        forall n | n in init && kinds.IsNumerical(n) ensures NumericColumn(rows, n) {
          assert n in names;
        }
      }
      GainsAreFeatureGains(crit, kinds, rows, labels, init);
      assert forall i | 0 <= i < |init| :: init[i] == names[i];
    }
  }

  /** Computing the gains fails only on an empty subset, and only with the missing-maximum error. */
  lemma {:induction false} GainsFailOnlyWhenEmpty(crit: Criterion, kinds: Kinds, rows: seq<Row>, labels: seq<Label>, names: seq<string>)
    requires NumericColumns(rows, names, kinds)
    ensures Gains(crit, kinds, rows, labels, names).Failure? ==>
      |rows| == 0 && Gains(crit, kinds, rows, labels, names).error.NoMaximum?
  {
    if names != [] {
      var init := names[..|names| - 1];
      assert NumericColumns(rows, init, kinds) by {
        forall n | n in init && kinds.IsNumerical(n) ensures NumericColumn(rows, n) {
          assert n in names;
        }
      }
      GainsFailOnlyWhenEmpty(crit, kinds, rows, labels, init);
    }
  }

  /** Some candidate is a numerical feature. */
  predicate NumericalAmong(names: seq<string>, kinds: Kinds)
  {
    exists n | n in names :: kinds.IsNumerical(n)
  }

  /**
   * On an empty subset a numerical candidate makes the gains fail, since the maximum of its empty column
   * cannot be converted: gains computed without error over a numerical candidate mean there are rows.
   */
  lemma {:induction false} GainsNeedRows(crit: Criterion, kinds: Kinds, rows: seq<Row>, labels: seq<Label>, names: seq<string>)
    requires NumericColumns(rows, names, kinds)
    ensures Gains(crit, kinds, rows, labels, names).Success? && NumericalAmong(names, kinds) ==> |rows| > 0
  {
    if names != [] && |rows| == 0 && NumericalAmong(names, kinds) {
      var init, last := names[..|names| - 1], names[|names| - 1];
      assert NumericColumns(rows, init, kinds) by {
        forall n | n in init && kinds.IsNumerical(n) ensures NumericColumn(rows, n) {
          assert n in names;
        }
      }
      var e :| e in names && kinds.IsNumerical(e);
      if e != last {
        assert names == init + [last];
        assert NumericalAmong(init, kinds);
        GainsNeedRows(crit, kinds, rows, labels, init);
      }
    }
  }

  /**
   * The selection picks the first feature of strictly largest score, and only one that beats the
   * starting score; when none beats it, nothing is selected and the score stays at the start.
   */
  lemma {:induction false} BestIsFirstMaximum(names: seq<string>, gains: seq<Option<Gain>>, start: real)
    requires |names| == |gains|
    ensures var b := Best(names, gains, start);
      && b.score >= start
      && (forall i | 0 <= i < |gains| && gains[i].Some? :: gains[i].value.score <= b.score)
      && (b.choice.None? <==> forall i | 0 <= i < |gains| && gains[i].Some? :: gains[i].value.score <= start)
      && (b.choice.None? ==> b.score == start)
      && (b.choice.Some? ==> exists i | 0 <= i < |names| ::
            && names[i] == b.choice.value.0 && gains[i] == Some(b.choice.value.1)
            && b.score == b.choice.value.1.score > start
            && forall j | 0 <= j < i && gains[j].Some? :: gains[j].value.score < b.score)
  {
    if names != [] {
      var n, k := names[..|names| - 1], gains[..|gains| - 1];
      BestIsFirstMaximum(n, k, start);
      var prev := Best(n, k, start);
      assert forall i | 0 <= i < |k| :: k[i] == gains[i];
      var b := Best(names, gains, start);
      if b.choice.Some? && b != prev {
        var i := |names| - 1;
        assert names[i] == b.choice.value.0 && gains[i] == Some(b.choice.value.1);
      } else if prev.choice.Some? {
        var i :| 0 <= i < |n| && n[i] == prev.choice.value.0 && k[i] == Some(prev.choice.value.1)
          && prev.score == prev.choice.value.1.score > start
          && forall j | 0 <= j < i && k[j].Some? :: k[j].value.score < prev.score;
        assert names[i] == b.choice.value.0 && gains[i] == Some(b.choice.value.1);
      }
    }
  }

  /**
   * A selected feature is one of the candidates, beats the starting score, and has a gain of its kind:
   * so the subset is not empty, and a numerical feature's gain is its threshold scan.
   */
  lemma ChosenFacts(crit: Criterion, kinds: Kinds, start: real, rows: seq<Row>, labels: seq<Label>, names: seq<string>, f: string, g: Gain)
    requires NumericColumns(rows, names, kinds)
    requires Choice(crit, kinds, start, rows, labels, names) == Success(Some((f, g)))
    ensures f in names && g.score > start && |rows| > 0
    ensures kinds.IsCategorical(f) || kinds.IsNumerical(f)
    ensures kinds.IsNumerical(f) ==> NumericalGain(crit, rows, labels, f) == Success(g)
  {
    var gs := Gains(crit, kinds, rows, labels, names).value;
    BestIsFirstMaximum(names, gs, start);
    GainsAreFeatureGains(crit, kinds, rows, labels, names);
    var i :| 0 <= i < |names| && names[i] == f && gs[i] == Some(g) && g.score > start;
    assert FeatureGain(crit, kinds, rows, labels, f) == Success(Some(g));
  }

  /** The Python type of `min_impurity_decrease`: the selection code accepts only a float. */
  datatype Number = Float(x: real) | Int(n: int)

  /** `best_gain` as the code holds it: the configured minimum, or the gain of the best feature so far. */
  datatype Held = Configured(minimum: Number) | Reached(gain: Gain)
  {
    /** One of the four `isinstance` branches of lines 75-90 applies. */
    predicate Comparable() { Reached? || minimum.Float? }

    function Score(): real
      requires Comparable()
    {
      if Reached? then gain.score else minimum.x
    }
  }

  /**
   * Lines 71-90 as written: a feature is compared only when `best_gain` is a float or a tuple, so an
   * integer minimum is never compared with anything.
   */
  function BestAsWritten(names: seq<string>, gains: seq<Option<Gain>>, start: Number): (r: (Held, Option<string>))
    requires |names| == |gains|
    ensures r.1.None? <==> r.0 == Configured(start)
    ensures r.1.Some? ==> r.0.Reached? && exists i | 0 <= i < |names| :: names[i] == r.1.value && gains[i] == Some(r.0.gain)
  {
    if names == [] then (Configured(start), None)
    else
      var prev := BestAsWritten(names[..|names| - 1], gains[..|gains| - 1], start);
      var g := gains[|gains| - 1];
      if g.Some? && prev.0.Comparable() && prev.0.Score() < g.value.score then (Reached(g.value), Some(names[|names| - 1]))
      else prev
  }

  /** With an integer `min_impurity_decrease` (for instance 0) no feature is ever selected, so no node splits. */
  lemma {:induction false} IntegerMinimumNeverSplits(names: seq<string>, gains: seq<Option<Gain>>, n: int)
    requires |names| == |gains|
    ensures BestAsWritten(names, gains, Int(n)) == (Configured(Int(n)), None)
  {
    if names != [] {
      IntegerMinimumNeverSplits(names[..|names| - 1], gains[..|gains| - 1], n);
    }
  }

  /** With a float minimum the code as written selects what `Best` selects. */
  lemma {:induction false} FloatMinimumAgrees(names: seq<string>, gains: seq<Option<Gain>>, x: real)
    requires |names| == |gains|
    ensures var w, b := BestAsWritten(names, gains, Float(x)), Best(names, gains, x);
      && w.0.Comparable() && w.0.Score() == b.score
      && (b.choice.None? ==> w == (Configured(Float(x)), None))
      && (b.choice.Some? ==> w == (Reached(b.choice.value.1), Some(b.choice.value.0)))
  {
    if names != [] {
      FloatMinimumAgrees(names[..|names| - 1], gains[..|gains| - 1], x);
    }
  }
}

=== FILE: split.dfy ===
/**
 * Splitting the rows of a node on its chosen feature: one part per observed value of a categorical
 * feature, two parts around the threshold of a numerical one.
 */
module Splits {
  import opened Wrappers
  import opened Dataset
  import opened Gains

  /** The parts of a split: the rows, the labels and the edge condition of each child, index by index. */
  datatype Parts = Parts(xs: seq<seq<Row>>, ys: seq<seq<Label>>, edges: seq<Edge>)
  {
    predicate Aligned()
    {
      |xs| == |ys| == |edges| && forall i | 0 <= i < |xs| :: |xs[i]| == |ys[i]|
    }
  }

  /** Each part holds exactly the rows (and labels) that its edge condition routes to it. */
  predicate Routed(p: Parts, rows: seq<Row>, labels: seq<Label>, f: string)
    requires |rows| == |labels|
  {
    && |p.xs| == |p.ys| == |p.edges|
    && forall i | 0 <= i < |p.xs| :: (p.xs[i], p.ys[i]) == Branch(rows, labels, f, p.edges[i])
  }

  /**
   * The state of the categorical split after some values are done: the parts made so far are routed,
   * non-empty and of distinct values, every observed value is done or remaining, and the parts together
   * with the rows of the remaining values hold every (row, label) pair.
   */
  predicate Progress(rows: seq<Row>, labels: seq<Label>, f: string, remaining: set<Value>, p: Parts)
    requires |rows| == |labels|
  {
    && remaining <= Observed(rows, f)
    && Routed(p, rows, labels, f) && p.Aligned()
    && (forall v | v in Observed(rows, f) :: v in remaining || Is(v) in p.edges)
    && (forall e | e in p.edges :: e.Is? && e.value in Observed(rows, f) && e.value !in remaining)
    && (forall i, j | 0 <= i < j < |p.edges| :: p.edges[i] != p.edges[j])
    && (forall i | 0 <= i < |p.xs| :: |p.xs[i]| > 0)
    && multiset(Pairs(rows, labels))
       == Gather(p.xs, p.ys) + multiset(Pairs(Among(rows, labels, f, remaining).0, Among(rows, labels, f, remaining).1))
  }

  /** Making the part of one remaining value keeps the progress invariant. */
  lemma ProgressStep(rows: seq<Row>, labels: seq<Label>, f: string, remaining: set<Value>, p: Parts, v: Value)
    requires |rows| == |labels| && Progress(rows, labels, f, remaining, p) && v in remaining
    ensures var b := Branch(rows, labels, f, Is(v));
      Progress(rows, labels, f, remaining - {v}, Parts(p.xs + [b.0], p.ys + [b.1], p.edges + [Is(v)]))
  {
    var b := Branch(rows, labels, f, Is(v));
    var q := Parts(p.xs + [b.0], p.ys + [b.1], p.edges + [Is(v)]);
    assert Routed(q, rows, labels, f) && q.Aligned() by {
      forall i | 0 <= i < |q.xs| ensures (q.xs[i], q.ys[i]) == Branch(rows, labels, f, q.edges[i]) && |q.xs[i]| == |q.ys[i]| {
        if i < |p.xs| {
          assert (q.xs[i], q.ys[i], q.edges[i]) == (p.xs[i], p.ys[i], p.edges[i]);
        }
      }
    }
    assert forall e | e in q.edges :: e.Is? && e.value in Observed(rows, f) && e.value !in remaining - {v} by {
      forall e | e in q.edges ensures e.Is? && e.value in Observed(rows, f) && e.value !in remaining - {v} {
        if e != Is(v) {
          assert e in p.edges;
        }
      }
    }
    assert forall i, j | 0 <= i < j < |q.edges| :: q.edges[i] != q.edges[j] by {
      forall i, j | 0 <= i < j < |q.edges| ensures q.edges[i] != q.edges[j] {
        if j == |p.edges| {
          assert p.edges[i] in p.edges;
        }
      }
    }
    assert forall i | 0 <= i < |q.xs| :: |q.xs[i]| > 0 by {
      ObservedBranchNonEmpty(rows, labels, f, v);
    }
    assert forall w | w in Observed(rows, f) :: w in remaining - {v} || Is(w) in q.edges;
    AmongSplit(rows, labels, f, remaining, v);
    GatherSnoc(p.xs, p.ys, b.0, b.1);
    var a, a' := Among(rows, labels, f, remaining), Among(rows, labels, f, remaining - {v});
    var m, g, ma, mb, ma' := multiset(Pairs(rows, labels)), Gather(p.xs, p.ys), multiset(Pairs(a.0, a.1)),
      multiset(Pairs(b.0, b.1)), multiset(Pairs(a'.0, a'.1));
    assert m == g + ma && ma == mb + ma' && Gather(q.xs, q.ys) == g + mb;
    Regroup(m, g, ma, mb, ma');
  }

  /** Moving one part from the remainder to the parts made so far keeps the total. */
  lemma Regroup<T>(m: multiset<T>, g: multiset<T>, ma: multiset<T>, mb: multiset<T>, ma': multiset<T>)
    requires m == g + ma && ma == mb + ma'
    ensures m == (g + mb) + ma'
  {
  }

  /**
   * Lines 149-159: one part per distinct value of the feature, in the iteration order of a Python set,
   * which the model leaves open.
   */
  method CategoricalSplit(rows: seq<Row>, labels: seq<Label>, f: string) returns (p: Parts)
    requires |rows| == |labels| && HasColumn(rows, f)
    ensures Routed(p, rows, labels, f) && p.Aligned()
    ensures forall v :: Is(v) in p.edges <==> v in Observed(rows, f)
    ensures forall e | e in p.edges :: e.Is?
    ensures forall i, j | 0 <= i < j < |p.edges| :: p.edges[i] != p.edges[j]
    ensures forall i | 0 <= i < |p.xs| :: |p.xs[i]| > 0
    ensures multiset(Pairs(rows, labels)) == Gather(p.xs, p.ys)
  {
    var remaining := Observed(rows, f);
    AmongEverything(rows, labels, f, remaining);
    p := Parts([], [], []);
    while remaining != {}
      invariant Progress(rows, labels, f, remaining, p)
      decreases remaining
    {
      var v :| v in remaining;
      ProgressStep(rows, labels, f, remaining, p, v);
      var b := Branch(rows, labels, f, Is(v));
      p := Parts(p.xs + [b.0], p.ys + [b.1], p.edges + [Is(v)]);
      remaining := remaining - {v};
    }
    AmongNothing(rows, labels, f);
  }

  /**
   * Lines 162-172: the rows below the threshold, then the rows at or above it. With a threshold the two
   * parts share out every (row, label) pair; without one both parts are empty.
   */
  function NumericalSplit(rows: seq<Row>, labels: seq<Label>, f: string, t: Option<int>): (p: Parts)
    requires |rows| == |labels| && NumericColumn(rows, f)
    ensures Routed(p, rows, labels, f) && p.Aligned()
    ensures p.edges == [Below(t), AtLeast(t)]
    ensures t.Some? ==> multiset(Pairs(rows, labels)) == Gather(p.xs, p.ys)
    ensures t.None? ==> p.xs == [[], []] && p.ys == [[], []]
  {
    var less, more := Branch(rows, labels, f, Below(t)), Branch(rows, labels, f, AtLeast(t));
    if t.Some? then
      ThresholdPartition(rows, labels, f, t.value);
      GatherTwo(less.0, less.1, more.0, more.1);
      Parts([less.0, more.0], [less.1, more.1], [Below(t), AtLeast(t)])
    else
      NoThresholdSelectsNothing(rows, labels, f);
      Parts([less.0, more.0], [less.1, more.1], [Below(t), AtLeast(t)])
  }

  /** Under a sound criterion, a threshold of positive gain leaves rows on both sides. */
  lemma PositiveThresholdSplits(crit: Criterion, rows: seq<Row>, labels: seq<Label>, f: string, t: int)
    requires Sound(crit) && |rows| == |labels| && NumericColumn(rows, f)
    requires crit.threshold(rows, labels, f, t) > 0.0
    ensures 0 < |Branch(rows, labels, f, Below(Some(t))).0| < |rows|
    ensures 0 < |Branch(rows, labels, f, AtLeast(Some(t))).0| < |rows|
  {
    ThresholdPartition(rows, labels, f, t);
  }

  /** A gain that names a threshold to split at. */
  predicate HasThreshold(g: Gain)
  {
    g.Pair? && g.threshold.Some?
  }

  /**
   * Lines 128-146: the split by the feature's kind. A numerical split reads the threshold out of the
   * gain pair, None included; a feature of neither kind leaves the parts unbound.
   */
  method Split(kinds: Kinds, rows: seq<Row>, labels: seq<Label>, f: string, gain: Gain) returns (r: Result<Parts, Fault>)
    requires |rows| == |labels|
    requires kinds.IsCategorical(f) ==> HasColumn(rows, f)
    requires kinds.IsNumerical(f) ==> NumericColumn(rows, f) && gain.Pair?
    ensures r.Success? ==> Routed(r.value, rows, labels, f) && r.value.Aligned()
    ensures r.Success? && (kinds.IsCategorical(f) || HasThreshold(gain)) ==> multiset(Pairs(rows, labels)) == Gather(r.value.xs, r.value.ys)
    ensures kinds.IsCategorical(f) ==> r.Success? && forall v :: Is(v) in r.value.edges <==> v in Observed(rows, f)
    ensures kinds.IsCategorical(f) ==> forall e | e in r.value.edges :: e.Is?
    ensures kinds.IsCategorical(f) ==> forall i, j | 0 <= i < j < |r.value.edges| :: r.value.edges[i] != r.value.edges[j]
    ensures kinds.IsCategorical(f) ==> forall i | 0 <= i < |r.value.xs| :: |r.value.xs[i]| > 0
    ensures kinds.IsNumerical(f) ==> r == Success(NumericalSplit(rows, labels, f, gain.threshold))
    ensures !kinds.IsCategorical(f) && !kinds.IsNumerical(f) ==> r == Failure(NotAFeature(f))
  {
    if kinds.IsCategorical(f) {
      var p := CategoricalSplit(rows, labels, f);
      r := Success(p);
    } else if kinds.IsNumerical(f) {
      r := Success(NumericalSplit(rows, labels, f, gain.threshold));
    } else {
      r := Failure(NotAFeature(f));
    }
  }
}

=== FILE: statistics.dfy ===
/**
 * The statistics every node records: the number of samples, the count of each class in the sorted
 * class order, and the majority label. Also the sorted class list that `fit` derives from the labels.
 */
module Statistics {
  import opened Wrappers
  import opened Dataset

  /** How many labels equal `c` (the pandas `(Y == c).sum()`). */
  function Count(labels: seq<Label>, c: Label): nat
  {
    if labels == [] then 0 else (if labels[0] == c then 1 else 0) + Count(labels[1..], c)
  }

  /** The count of each class, in the order of `classNames`. */
  function Distribution(labels: seq<Label>, classNames: seq<Label>): seq<nat>
  {
    seq(|classNames|, i requires 0 <= i < |classNames| => Count(labels, classNames[i]))
  }

  function Sum(d: seq<nat>): nat
  {
    if d == [] then 0 else Sum(d[..|d| - 1]) + d[|d| - 1]
  }

  /**
   * The running maximum of lines 95-101 after scanning `d`: the best count so far (starting at -1) and
   * the position where it was first reached (-1 while nothing was scanned).
   */
  function Lead(d: seq<nat>): (r: (int, int))
    ensures -1 <= r.1 < |d|
  {
    if d == [] then (-1, -1)
    else
      var prev := Lead(d[..|d| - 1]);
      if prev.0 < d[|d| - 1] then (d[|d| - 1], |d| - 1) else prev
  }

  /** The label of a node: the class at the position `Lead` picks, if there is a class at all. */
  function Majority(labels: seq<Label>, classNames: seq<Label>): Option<Label>
  {
    var k := Lead(Distribution(labels, classNames)).1;
    if k < 0 then None else Some(classNames[k])
  }

  predicate DistinctLabels(cs: seq<Label>)
  {
    forall i, j | 0 <= i < j < |cs| :: cs[i] != cs[j]
  }

  predicate StrictlyIncreasing(s: seq<Label>)
  {
    forall i, j | 0 <= i < j < |s| :: s[i] < s[j]
  }

  /**
   * Lines 92-101: the per-class counts, in class order, and the majority label, found by a running
   * maximum that only moves on a strictly greater count.
   */
  method NodeStatistics(labels: seq<Label>, classNames: seq<Label>) returns (distribution: seq<nat>, classLabel: Option<Label>)
    ensures distribution == Distribution(labels, classNames)
    ensures classLabel == Majority(labels, classNames)
  {
    distribution := [];
    classLabel := None;
    var maxCount: int := -1;
    for i := 0 to |classNames|
      invariant distribution == Distribution(labels, classNames[..i])
      invariant maxCount == Lead(distribution).0
      invariant classLabel == if Lead(distribution).1 < 0 then None else Some(classNames[Lead(distribution).1])
    {
      var count := Count(labels, classNames[i]);
      assert Distribution(labels, classNames[..i + 1]) == distribution + [count];
      distribution := distribution + [count];
      assert distribution[..|distribution| - 1] == Distribution(labels, classNames[..i]);
      if maxCount < count {
        maxCount := count;
        classLabel := Some(classNames[i]);
      }
    }
    assert classNames[..|classNames|] == classNames;
  }

  /** `Lead` finds the first position of the largest count. */
  lemma {:induction false} LeadIsFirstMaximum(d: seq<nat>)
    ensures var r := Lead(d);
      && (d == [] <==> r.1 == -1)
      && (d == [] ==> r.0 == -1)
      && (d != [] ==> 0 <= r.1 < |d| && r.0 == d[r.1]
                      && (forall j | 0 <= j < |d| :: d[j] <= d[r.1])
                      && (forall j | 0 <= j < r.1 :: d[j] < d[r.1]))
  {
    if d != [] {
      LeadIsFirstMaximum(d[..|d| - 1]);
    }
  }

  /**
   * The majority label is the first class (in class order) with the largest count; it exists exactly
   * when there are classes, and for a subset without rows it is the first class.
   */
  lemma MajorityIsFirstMostFrequent(labels: seq<Label>, classNames: seq<Label>)
    ensures Majority(labels, classNames).None? <==> classNames == []
    ensures classNames != [] ==>
      exists k | 0 <= k < |classNames| ::
        && Majority(labels, classNames) == Some(classNames[k])
        && (forall j | 0 <= j < |classNames| :: Count(labels, classNames[j]) <= Count(labels, classNames[k]))
        && (forall j | 0 <= j < k :: Count(labels, classNames[j]) < Count(labels, classNames[k]))
    ensures labels == [] && classNames != [] ==> Majority(labels, classNames) == Some(classNames[0])
  {
    var d := Distribution(labels, classNames);
    LeadIsFirstMaximum(d);
    if classNames != [] {
      var k := Lead(d).1;
      assert d[k] == Count(labels, classNames[k]);
      assert forall j | 0 <= j < |classNames| :: d[j] == Count(labels, classNames[j]);
      if labels == [] {
        assert d[0] == 0;
      }
    }
  }

  /** How many labels fall in the class set `s`. */
  function CountIn(labels: seq<Label>, s: set<Label>): nat
  {
    if labels == [] then 0 else (if labels[0] in s then 1 else 0) + CountIn(labels[1..], s)
  }

  lemma {:induction false} CountInAdd(labels: seq<Label>, s: set<Label>, c: Label)
    requires c !in s
    ensures CountIn(labels, s + {c}) == CountIn(labels, s) + Count(labels, c)
  {
    if labels != [] {
      CountInAdd(labels[1..], s, c);
    }
  }

  lemma {:induction false} CountInAll(labels: seq<Label>, s: set<Label>)
    requires forall l | l in labels :: l in s
    ensures CountIn(labels, s) == |labels|
  {
    if labels != [] {
      var first := labels[0];
      assert first in labels;
      forall l | l in labels[1..] ensures l in s {
        assert l in labels;
      }
      CountInAll(labels[1..], s);
    }
  }

  lemma {:induction false} SumIsCountIn(labels: seq<Label>, classNames: seq<Label>)
    requires DistinctLabels(classNames)
    ensures Sum(Distribution(labels, classNames)) == CountIn(labels, set c | c in classNames)
  {
    if classNames == [] {
      assert (set c | c in classNames) == {};
      CountInNone(labels);
    } else {
      var n := |classNames|;
      var prefix := classNames[..n - 1];
      var last := classNames[n - 1];
      assert Distribution(labels, classNames)[..n - 1] == Distribution(labels, prefix);
      SumIsCountIn(labels, prefix);
      assert last !in prefix;
      assert (set c | c in classNames) == (set c | c in prefix) + {last};
      CountInAdd(labels, (set c | c in prefix), last);
    }
  }

  lemma {:induction false} CountInNone(labels: seq<Label>)
    ensures CountIn(labels, {}) == 0
  {
    if labels != [] {
      CountInNone(labels[1..]);
    }
  }

  /** The distribution of a node adds up to its number of samples. */
  lemma SumOfDistribution(labels: seq<Label>, classNames: seq<Label>)
    requires DistinctLabels(classNames)
    requires forall l | l in labels :: l in classNames
    ensures Sum(Distribution(labels, classNames)) == |labels|
  {
    SumIsCountIn(labels, classNames);
    CountInAll(labels, (set c | c in classNames));
  }

  /** `sorted` of a sorted list without repeats, with one more label. */
  function Insert(s: seq<Label>, x: Label): (r: seq<Label>)
    requires StrictlyIncreasing(s)
    ensures StrictlyIncreasing(r)
    ensures forall y :: y in r <==> y in s || y == x
  {
    if s == [] then [x]
    else if x < s[0] then [x] + s
    else if x == s[0] then s
    else
      assert forall y | y in s[1..] :: s[0] < y by {
        forall y | y in s[1..] ensures s[0] < y {
          var k :| 0 <= k < |s[1..]| && s[1..][k] == y;
          assert s[k + 1] == y;
        }
      }
      var rest := Insert(s[1..], x);
      assert forall y | y in rest :: s[0] < y;
      assert StrictlyIncreasing([s[0]] + rest) by {
        forall i, j | 0 <= i < j < |[s[0]] + rest| ensures ([s[0]] + rest)[i] < ([s[0]] + rest)[j] {
          assert ([s[0]] + rest)[j] == rest[j - 1];
          if i > 0 {
            assert ([s[0]] + rest)[i] == rest[i - 1];
          } else {
            assert rest[j - 1] in rest;
          }
        }
      }
      [s[0]] + rest
  }

  /** Line 39: `sorted(list(set(Y)))`, the classes observed in the labels in increasing order. */
  function SortedClasses(labels: seq<Label>): (r: seq<Label>)
    ensures StrictlyIncreasing(r)
    ensures forall y :: y in r <==> y in labels
  {
    if labels == [] then [] else Insert(SortedClasses(labels[1..]), labels[0])
  }
}

=== FILE: tree.dfy ===
/**
 * The decision tree: its nodes, the shared special-case registry, the recursive node construction
 * of `_generate_node` and the training entry point `fit`.
 */
module Tree {
  import opened Wrappers
  import opened Dataset
  import opened Eligibility
  import opened Statistics
  import opened Gains
  import opened Splits

  /**
   * A tree node (lines 344-352): the feature it splits on (None for a leaf, when nothing was chosen),
   * the edge condition that led to it (None at the root), the number of its rows, the per-class counts
   * in the order of the class names, the majority class, and the children.
   */
  datatype Node = Node(splitFeature: Option<string>, featureValue: Option<Edge>, samples: nat,
                       distribution: seq<nat>, classLabel: Option<Label>, childs: seq<Node>)

  /** Every feature some node of the tree splits on. */
  function SplitFeatures(n: Node): set<string>
    decreases n, 1
  {
    (if n.splitFeature.Some? then {n.splitFeature.value} else {}) + ChildFeatures(n.childs)
  }

  /** Every feature some node of the subtrees splits on. */
  function ChildFeatures(cs: seq<Node>): set<string>
    decreases cs, 0
  {
    if cs == [] then {} else ChildFeatures(cs[..|cs| - 1]) + SplitFeatures(cs[|cs| - 1])
  }

  /** The number of rows the subtrees hold together. */
  function SampleSum(cs: seq<Node>): nat
  {
    if cs == [] then 0 else SampleSum(cs[..|cs| - 1]) + cs[|cs| - 1].samples
  }

  /** No categorical split feature is split on again anywhere below the node that uses it. */
  predicate CatOncePerPath(n: Node, kinds: Kinds)
    decreases n
  {
    && (n.splitFeature.Some? && kinds.IsCategorical(n.splitFeature.value) ==> n.splitFeature.value !in ChildFeatures(n.childs))
    && forall i | 0 <= i < |n.childs| :: CatOncePerPath(n.childs[i], kinds)
  }

  /** At every node the class counts add up to the rows, and the children share out exactly those rows. */
  predicate Counted(n: Node)
    decreases n
  {
    && Sum(n.distribution) == n.samples
    && (n.childs != [] ==> SampleSum(n.childs) == n.samples)
    && forall i | 0 <= i < |n.childs| :: Counted(n.childs[i])
  }

  /**
   * Along every path down from `n`, each node splits on a feature of `allowed` or on a dependent of a
   * registry key split on by a node above it on that path.
   */
  ghost predicate PathAllowed(n: Node, allowed: set<string>, cases: map<string, Dependents>)
    decreases n
  {
    && (n.splitFeature.Some? ==> n.splitFeature.value in allowed)
    && forall i | 0 <= i < |n.childs| ::
         PathAllowed(n.childs[i], allowed + (if n.splitFeature.Some? then DepsOf(cases, {n.splitFeature.value}) else {}), cases)
  }

  /**
   * Along every path down from `n`, a registry dependent is split on only below a node that splits on
   * one of its prerequisites; `above` holds the split features of the nodes above `n`.
   */
  ghost predicate PrerequisiteAbove(n: Node, above: set<string>, cases: map<string, Dependents>)
    decreases n
  {
    && (n.splitFeature.Some? && n.splitFeature.value in DepSet(cases) ==>
          exists k | k in above && k in cases :: n.splitFeature.value in Names(cases[k]))
    && forall i | 0 <= i < |n.childs| ::
         PrerequisiteAbove(n.childs[i], above + (if n.splitFeature.Some? then {n.splitFeature.value} else {}), cases)
  }

  /**
   * What a subtree built from `eligible` does with the registry: it splits only on eligible features
   * and on dependents unlocked above on the same path, the entries it popped are exactly those of its
   * non-empty split features, and it never reuses a categorical feature on a path.
   */
  ghost predicate Grown(n: Node, eligible: seq<string>, before: map<string, Dependents>, after: map<string, Dependents>, kinds: Kinds)
  {
    && SplitFeatures(n) <= Elements(eligible) + Unlocked(before, after)
    && before.Keys - after.Keys <= SplitFeatures(n) - {""}
    && (SplitFeatures(n) - {""}) !! after.Keys
    && CatOncePerPath(n, kinds)
    && PathAllowed(n, Elements(eligible), before)
  }

  /** `Grown` for the children built so far, all from the same eligible list. */
  ghost predicate GrownAll(cs: seq<Node>, eligible: seq<string>, before: map<string, Dependents>, after: map<string, Dependents>, kinds: Kinds)
  {
    && ChildFeatures(cs) <= Elements(eligible) + Unlocked(before, after)
    && before.Keys - after.Keys <= ChildFeatures(cs) - {""}
    && (ChildFeatures(cs) - {""}) !! after.Keys
    && (forall i | 0 <= i < |cs| :: CatOncePerPath(cs[i], kinds))
    && forall i | 0 <= i < |cs| :: PathAllowed(cs[i], Elements(eligible), before)
  }

  /**
   * What `_generate_node` relies on: labels aligned with rows, an eligible list without repeats that
   * names no locked dependent, dependents named once in the registry, and every row holding every
   * feature that can become eligible (a number for a numerical one).
   */
  ghost predicate Ready(rows: seq<Row>, labels: seq<Label>, eligible: seq<string>, cases: map<string, Dependents>, kinds: Kinds)
  {
    && |rows| == |labels|
    && Distinct(eligible) && DependentsDistinct(cases) && Elements(eligible) !! DepSet(cases)
    && Typed(rows, Elements(eligible) + DepSet(cases), kinds)
  }

  /** The class names are distinct and name every label of the subset. */
  predicate Covers(classNames: seq<Label>, labels: seq<Label>)
  {
    DistinctLabels(classNames) && forall l | l in labels :: l in classNames
  }

  /** The name part of a selection. */
  function ChosenName(c: Option<(string, Gain)>): Option<string>
  {
    if c.None? then None else Some(c.value.0)
  }

  /**
   * A child of a node split on `f`: it hangs on an edge, and its samples, class counts and label are
   * those of the rows (and labels) that the edge selects.
   */
  predicate ChildOf(c: Node, rows: seq<Row>, labels: seq<Label>, f: string, classNames: seq<Label>)
    requires |rows| == |labels|
  {
    c.featureValue.Some? &&
    var b := Branch(rows, labels, f, c.featureValue.value);
    c.samples == |b.0| && c.distribution == Distribution(b.1, classNames) && c.classLabel == Majority(b.1, classNames)
  }

  /**
   * The edges of the children of a node split on `f` with gain `g`: one distinct edge `== v` per value
   * `v` observed in the rows for a categorical feature, and `< t`, `>= t` in that order, with the
   * threshold of the gain, for a numerical one.
   */
  predicate OnSplit(cs: seq<Node>, rows: seq<Row>, f: string, g: Gain, kinds: Kinds)
  {
    && (kinds.IsCategorical(f) ==>
          && (forall j | 0 <= j < |cs| :: cs[j].featureValue.Some? && cs[j].featureValue.value.Is?
                                            && cs[j].featureValue.value.value in Observed(rows, f))
          && (forall v | v in Observed(rows, f) :: exists j | 0 <= j < |cs| :: cs[j].featureValue == Some(Is(v)))
          && (forall i, j | 0 <= i < j < |cs| :: cs[i].featureValue != cs[j].featureValue))
    && (kinds.IsNumerical(f) ==>
          && g.Pair? && |cs| == 2
          && cs[0].featureValue == Some(Below(g.threshold)) && cs[1].featureValue == Some(AtLeast(g.threshold)))
  }

  /** The special-case registry `{prerequisite: dependents}`: one dictionary shared by every node, popped in place. */
  class Registry {
    var cases: map<string, Dependents>

    constructor (cases: map<string, Dependents>)
      ensures this.cases == cases
    {
      this.cases := cases;
    }

    /** Lines 110-111: the dependents of `f`, and the entry is gone. */
    method Pop(f: string) returns (d: Dependents)
      requires f in cases
      modifies this
      ensures d == old(cases)[f] && cases == old(cases) - {f}
    {
      d := cases[f];
      cases := cases - {f};
    }
  }

  /** A narrower subset of rows, and fewer features, keep the rows typed. */
  lemma TypedNarrow(rows: seq<Row>, sub: seq<Row>, names: set<string>, fewer: set<string>, kinds: Kinds)
    requires Typed(rows, names, kinds) && fewer <= names
    requires forall r | r in sub :: r in rows
    ensures Typed(sub, fewer, kinds)
  {
  }

  /** Typed rows have every eligible column, numerical ones as numbers. */
  lemma TypedColumns(rows: seq<Row>, names: seq<string>, more: set<string>, kinds: Kinds)
    requires Typed(rows, Elements(names) + more, kinds)
    ensures NumericColumns(rows, names, kinds)
    ensures forall f | f in names :: HasColumn(rows, f)
  {
    forall f | f in names && kinds.IsNumerical(f) ensures NumericColumn(rows, f) {
      assert f in Elements(names) + more;
    }
    forall f | f in names ensures HasColumn(rows, f) {
      assert f in Elements(names) + more;
    }
  }

  /** Appending one subtree adds its split features and its rows. */
  lemma ChildSnoc(cs: seq<Node>, c: Node)
    ensures ChildFeatures(cs + [c]) == ChildFeatures(cs) + SplitFeatures(c)
    ensures SampleSum(cs + [c]) == SampleSum(cs) + c.samples
  {
    assert (cs + [c])[..|cs|] == cs;
  }

  /** Appending a subtree grown after the ones before it keeps `GrownAll`, over both rounds of pops. */
  lemma GrownAllStep(cs: seq<Node>, c: Node, eligible: seq<string>, c1: map<string, Dependents>,
                     cur: map<string, Dependents>, next: map<string, Dependents>, kinds: Kinds)
    requires GrownAll(cs, eligible, c1, cur, kinds) && Grown(c, eligible, cur, next, kinds)
    requires Submap(cur, c1) && Submap(next, cur)
    ensures GrownAll(cs + [c], eligible, c1, next, kinds) && Submap(next, c1)
  {
    ChildSnoc(cs, c);
    UnlockedChain(c1, cur, next);
    PathAllowedWider(c, Elements(eligible), Elements(eligible), cur, c1);
    assert c1.Keys - next.Keys <= (c1.Keys - cur.Keys) + (cur.Keys - next.Keys);
    assert next.Keys <= cur.Keys;
    forall i | 0 <= i < |cs + [c]|
      ensures CatOncePerPath((cs + [c])[i], kinds) && PathAllowed((cs + [c])[i], Elements(eligible), c1)
    {
      if i < |cs| {
        assert (cs + [c])[i] == cs[i];
      }
    }
  }

  /**
   * A node that splits on the eligible feature `f`, pops `f` if it is a key, and grows its children
   * from the updated list, is itself grown from `eligible`.
   */
  lemma ParentGrown(n: Node, f: string, eligible: seq<string>, next: seq<string>,
                    c0: map<string, Dependents>, c1: map<string, Dependents>, cf: map<string, Dependents>, kinds: Kinds)
    requires n.splitFeature == Some(f) && f in eligible && f != ""
    requires Distinct(eligible) && DependentsDistinct(c0) && Elements(eligible) !! DepSet(c0)
    requires next == Updated(eligible, f, kinds.categorical, c0)
    requires c1 == c0 - {f} && Submap(cf, c1)
    requires GrownAll(n.childs, next, c1, cf, kinds)
    requires forall i | 0 <= i < |n.childs| :: CatOncePerPath(n.childs[i], kinds)
    ensures Grown(n, eligible, c0, cf, kinds)
  {
    UpdateKeepsInvariants(eligible, f, kinds.categorical, c0);
    UnlockedByPop(c0, f);
    UnlockedChain(c0, c1, cf);
    UnlockedChain(c1, cf, cf);
    SubmapFacts(c1, c0);
    assert f in Elements(eligible);
    assert c0.Keys - cf.Keys <= SplitFeatures(n) - {""} by {
      forall k | k in c0.Keys - cf.Keys ensures k in SplitFeatures(n) - {""} {
        if k != f {
          assert k in c1.Keys - cf.Keys;
        }
      }
    }
    forall i | 0 <= i < |n.childs| ensures PathAllowed(n.childs[i], Elements(eligible) + DepsOf(c0, {f}), c0) {
      PathAllowedWider(n.childs[i], Elements(next), Elements(eligible) + DepsOf(c0, {f}), c1, c0);
    }
  }

  /** A leaf that splits on nothing, or on an eligible empty name, is grown from the eligible list without popping anything. */
  lemma LeafGrown(n: Node, eligible: seq<string>, cases: map<string, Dependents>, kinds: Kinds)
    requires n.childs == [] && (n.splitFeature.Some? ==> n.splitFeature.value in eligible && n.splitFeature.value == "")
    ensures Grown(n, eligible, cases, cases, kinds)
  {
  }

  /** A path condition met with fewer features allowed, and a registry with more entries popped, is met in general. */
  lemma {:induction false} PathAllowedWider(n: Node, a: set<string>, b: set<string>, c: map<string, Dependents>, c': map<string, Dependents>)
    requires PathAllowed(n, a, c) && a <= b && Submap(c, c')
    ensures PathAllowed(n, b, c')
    decreases n
  {
    if n.splitFeature.Some? {
      var f := n.splitFeature.value;
      DepsOfSubmap(c, c', {f});
      forall i | 0 <= i < |n.childs| ensures PathAllowed(n.childs[i], b + DepsOf(c', {f}), c') {
        PathAllowedWider(n.childs[i], a + DepsOf(c, {f}), b + DepsOf(c', {f}), c, c');
      }
    } else {
      assert a + {} == a && b + {} == b;
      forall i | 0 <= i < |n.childs| ensures PathAllowed(n.childs[i], b, c') {
        PathAllowedWider(n.childs[i], a, b, c, c');
      }
    }
  }

  /**
   * When every allowed dependent already has a prerequisite in `above`, a tree that splits only on
   * allowed features and on dependents unlocked along the path splits on a dependent only below one of
   * its prerequisites.
   */
  lemma {:induction false} PrerequisitesAbove(n: Node, allowed: set<string>, above: set<string>, cases: map<string, Dependents>)
    requires PathAllowed(n, allowed, cases)
    requires forall d | d in allowed && d in DepSet(cases) :: exists k | k in above && k in cases :: d in Names(cases[k])
    ensures PrerequisiteAbove(n, above, cases)
    decreases n
  {
    if n.splitFeature.Some? {
      var f := n.splitFeature.value;
      var allowed', above' := allowed + DepsOf(cases, {f}), above + {f};
      forall d | d in allowed' && d in DepSet(cases) ensures exists k | k in above' && k in cases :: d in Names(cases[k]) {
        if d !in allowed {
          var k :| k in {f} && k in cases && d in Names(cases[k]);
          assert k in above';
        }
      }
      forall i | 0 <= i < |n.childs| ensures PrerequisiteAbove(n.childs[i], above', cases) {
        PrerequisitesAbove(n.childs[i], allowed', above', cases);
      }
    } else {
      assert allowed + {} == allowed && above + {} == above;
      forall i | 0 <= i < |n.childs| ensures PrerequisiteAbove(n.childs[i], above, cases) {
        PrerequisitesAbove(n.childs[i], allowed, above, cases);
      }
    }
  }

  /**
   * The classifier (lines 20-341). The hyperparameters are fixed at construction; `fit` records the
   * feature and class names and the feature kinds, and builds the tree. The entropy arithmetic is the
   * criterion `crit`.
   */
  class DecisionTree {
    const minSamplesSplit: int
    /** Stored but never read by the training code. */
    const minSamplesLeaf: int
    const minImpurityDecrease: real
    const crit: Criterion
    var featureNames: seq<string>
    var classNames: seq<Label>
    var kinds: Kinds
    var tree: Option<Node>

    /** Lines 22-25, before any training. */
    constructor (minSamplesSplit: int, minSamplesLeaf: int, minImpurityDecrease: real, crit: Criterion)
      ensures this.minSamplesSplit == minSamplesSplit && this.minSamplesLeaf == minSamplesLeaf
      ensures this.minImpurityDecrease == minImpurityDecrease && this.crit == crit
      ensures featureNames == [] && classNames == [] && kinds == Kinds([], []) && tree == None
    {
      this.minSamplesSplit := minSamplesSplit;
      this.minSamplesLeaf := minSamplesLeaf;
      this.minImpurityDecrease := minImpurityDecrease;
      this.crit := crit;
      featureNames, classNames, kinds, tree := [], [], Kinds([], []), None;
    }

    /** Lines 22-25 with the default arguments. */
    constructor Default(crit: Criterion)
      ensures minSamplesSplit == 2 && minSamplesLeaf == 1 && minImpurityDecrease == 0.05 && this.crit == crit
      ensures featureNames == [] && classNames == [] && kinds == Kinds([], []) && tree == None
    {
      minSamplesSplit, minSamplesLeaf, minImpurityDecrease := 2, 1, 0.05;
      this.crit := crit;
      featureNames, classNames, kinds, tree := [], [], Kinds([], []), None;
    }

    /**
     * Lines 27-53: record the feature names, the sorted class names and the feature kinds, make every
     * registry dependent ineligible, and grow the tree from all rows with the shared registry. The tree
     * is replaced only when training succeeds.
     */
    method Fit(rows: seq<Row>, labels: seq<Label>, columns: seq<string>, categorical: seq<string>, numerical: seq<string>,
               registry: Registry) returns (r: Outcome<Fault>)
      requires Sound(crit) && |rows| == |labels| && Distinct(columns)
      requires Typed(rows, Elements(columns), Kinds(categorical, numerical))
      modifies this, registry
      ensures featureNames == columns && classNames == SortedClasses(labels) && kinds == Kinds(categorical, numerical)
      ensures Submap(registry.cases, old(registry.cases))
      ensures r == Fail(MissingDependent)
              <==> !(DependentsDistinct(old(registry.cases)) && DepSet(old(registry.cases)) <= Elements(columns))
      ensures r.Fail? ==> tree == old(tree) && (r.error.MissingDependent? || r.error.NoMaximum?)
      ensures r == Fail(MissingDependent) ==> registry.cases == old(registry.cases)
      ensures r.Pass? ==> (
        && tree.Some?
        && tree.value.featureValue == None && tree.value.samples == |rows|
        && tree.value.distribution == Distribution(labels, classNames)
        && tree.value.classLabel == Majority(labels, classNames)
        && NumericColumns(rows, Without(columns, DepSet(old(registry.cases))), kinds)
        && Choice(crit, kinds, minImpurityDecrease, rows, labels, Without(columns, DepSet(old(registry.cases)))).Success?
        && tree.value.splitFeature
           == ChosenName(Choice(crit, kinds, minImpurityDecrease, rows, labels, Without(columns, DepSet(old(registry.cases)))).value)
        && Counted(tree.value) && CatOncePerPath(tree.value, kinds)
        && SplitFeatures(tree.value) <= Elements(columns)
        && registry.cases.Keys == old(registry.cases).Keys - (SplitFeatures(tree.value) - {""})
        && PrerequisiteAbove(tree.value, {}, old(registry.cases)))
      ensures r.Pass? ==>
        (tree.value.childs != [] <==> tree.value.splitFeature.Some? && tree.value.splitFeature.value != "" && |rows| >= minSamplesSplit)
      ensures r.Pass? && tree.value.childs != [] ==>
        && (forall i | 0 <= i < |tree.value.childs| :: ChildOf(tree.value.childs[i], rows, labels, tree.value.splitFeature.value, classNames))
        && OnSplit(tree.value.childs, rows, tree.value.splitFeature.value,
                   Choice(crit, kinds, minImpurityDecrease, rows, labels, Without(columns, DepSet(old(registry.cases)))).value.value.1, kinds)
      ensures (&& |rows| > 0 && minImpurityDecrease >= 0.0
               && DependentsDistinct(old(registry.cases)) && DepSet(old(registry.cases)) <= Elements(columns)) ==> r.Pass?
    {
      featureNames := columns;
      classNames := SortedClasses(labels);
      kinds := Kinds(categorical, numerical);
      ghost var c0 := registry.cases;
      var eligible := InitialEligible(columns, registry.cases);
      if eligible.Failure? {
        return Fail(eligible.error);
      }
      WithoutDistinct(columns, DepSet(c0));
      assert Ready(rows, labels, eligible.value, c0, kinds) by {
        assert Elements(eligible.value) + DepSet(c0) <= Elements(columns);
        TypedNarrow(rows, rows, Elements(columns), Elements(eligible.value) + DepSet(c0), kinds);
      }
      TypedColumns(rows, eligible.value, DepSet(c0), kinds);
      var root := GenerateNode(rows, labels, None, eligible.value, registry);
      if root.Failure? {
        return Fail(root.error);
      }
      tree := Some(root.value);
      UnlockedChain(c0, registry.cases, registry.cases);
      PrerequisitesAbove(root.value, Elements(eligible.value), {}, c0);
      return Pass;
    }

    /**
     * Lines 56-126: the node for a subset of rows. It selects the best eligible feature and records the
     * class counts; a selected feature then updates the eligible list and the shared registry and,
     * with enough rows, splits the node.
     */
    method GenerateNode(rows: seq<Row>, labels: seq<Label>, featureValue: Option<Edge>, eligible: seq<string>, registry: Registry)
      returns (r: Result<Node, Fault>)
      requires Sound(crit) && Ready(rows, labels, eligible, registry.cases, kinds)
      modifies registry
      decreases |rows|, registry.cases.Keys, CatCount(eligible, kinds.categorical), 2
      ensures Submap(registry.cases, old(registry.cases))
      ensures r.Success? ==>
        && r.value.featureValue == featureValue && r.value.samples == |rows|
        && r.value.distribution == Distribution(labels, classNames) && r.value.classLabel == Majority(labels, classNames)
      ensures r.Success? ==>
        && Choice(crit, kinds, minImpurityDecrease, rows, labels, eligible).Success?
        && r.value.splitFeature == ChosenName(Choice(crit, kinds, minImpurityDecrease, rows, labels, eligible).value)
        && (r.value.childs != [] <==> r.value.splitFeature.Some? && r.value.splitFeature.value != "" && |rows| >= minSamplesSplit)
      ensures r.Success? && r.value.childs != [] ==>
        && (forall i | 0 <= i < |r.value.childs| :: ChildOf(r.value.childs[i], rows, labels, r.value.splitFeature.value, classNames))
        && OnSplit(r.value.childs, rows, r.value.splitFeature.value, Choice(crit, kinds, minImpurityDecrease, rows, labels, eligible).value.value.1, kinds)
      ensures r.Success? ==> Grown(r.value, eligible, old(registry.cases), registry.cases, kinds)
      ensures r.Success? && r.value.splitFeature.Some? && r.value.splitFeature.value != "" ==> r.value.splitFeature.value !in registry.cases
      ensures r.Success? && Covers(classNames, labels) ==> Counted(r.value)
      ensures r.Success? && NumericalAmong(eligible, kinds) ==> |rows| > 0
      ensures r.Failure? ==> r.error.NoMaximum?
      ensures |rows| > 0 && minImpurityDecrease >= 0.0 ==> r.Success?
    {
      ghost var c0 := registry.cases;
      TypedColumns(rows, eligible, DepSet(c0), kinds);
      var choice := SelectFeature(crit, kinds, minImpurityDecrease, rows, labels, eligible);
      GainsNeedRows(crit, kinds, rows, labels, eligible);
      if choice.Failure? {
        GainsFailOnlyWhenEmpty(crit, kinds, rows, labels, eligible);
        return Failure(choice.error);
      }
      var distribution, classLabel := NodeStatistics(labels, classNames);
      if Covers(classNames, labels) {
        SumOfDistribution(labels, classNames);
      }
      if choice.value.None? {
        LeafGrown(Node(None, featureValue, |rows|, distribution, classLabel, []), eligible, c0, kinds);
        return Success(Node(None, featureValue, |rows|, distribution, classLabel, []));
      }
      var f, g := choice.value.value.0, choice.value.value.1;
      ChosenFacts(crit, kinds, minImpurityDecrease, rows, labels, eligible, f, g);
      if f == "" {
        LeafGrown(Node(Some(f), featureValue, |rows|, distribution, classLabel, []), eligible, c0, kinds);
        return Success(Node(Some(f), featureValue, |rows|, distribution, classLabel, []));
      }
      var childs := Expand(rows, labels, f, g, eligible, registry);
      if childs.Failure? {
        return Failure(childs.error);
      }
      var n := Node(Some(f), featureValue, |rows|, distribution, classLabel, childs.value);
      ParentGrown(n, f, eligible, Updated(eligible, f, kinds.categorical, c0), c0, c0 - {f}, registry.cases, kinds);
      return Success(n);
    }

    /**
     * Lines 103-122, for a selected feature `f`: update the eligible list and the registry, then, with
     * at least `minSamplesSplit` rows, split and build one child per part.
     */
    method Expand(rows: seq<Row>, labels: seq<Label>, f: string, g: Gain, eligible: seq<string>, registry: Registry)
      returns (r: Result<seq<Node>, Fault>)
      requires Sound(crit) && Ready(rows, labels, eligible, registry.cases, kinds)
      requires Choice(crit, kinds, minImpurityDecrease, rows, labels, eligible) == Success(Some((f, g)))
      modifies registry
      decreases |rows|, registry.cases.Keys, CatCount(eligible, kinds.categorical), 1
      ensures Submap(registry.cases, old(registry.cases) - {f}) && f !in registry.cases
      ensures r.Success? ==>
        && (r.value != [] <==> |rows| >= minSamplesSplit)
        && (forall i | 0 <= i < |r.value| :: ChildOf(r.value[i], rows, labels, f, classNames))
        && (r.value != [] ==> OnSplit(r.value, rows, f, g, kinds))
        && GrownAll(r.value, Updated(eligible, f, kinds.categorical, old(registry.cases)), old(registry.cases) - {f}, registry.cases, kinds)
        && (r.value != [] ==> SampleSum(r.value) == |rows|)
      ensures r.Success? && Covers(classNames, labels) ==> forall j | 0 <= j < |r.value| :: Counted(r.value[j])
      ensures r.Failure? ==> r.error.NoMaximum?
      ensures minImpurityDecrease >= 0.0 ==> r.Success?
    {
      ghost var c0 := registry.cases;
      TypedColumns(rows, eligible, DepSet(c0), kinds);
      ChosenFacts(crit, kinds, minImpurityDecrease, rows, labels, eligible, f, g);
      UpdateKeepsInvariants(eligible, f, kinds.categorical, c0);
      var next := UpdateEligible(eligible, f, registry);
      ghost var c1 := registry.cases;
      SubmapFacts(c1, c0);
      UnlockedByPop(c0, f);
      if |rows| < minSamplesSplit {
        return Success([]);
      }
      assert f in Elements(eligible) + DepSet(c0);
      if kinds.IsNumerical(f) {
        NumericalGainFacts(crit, rows, labels, f);
      }
      var parts := Split(kinds, rows, labels, f, g);
      SplitSizes(crit, kinds, minImpurityDecrease, rows, labels, eligible, f, g, parts);
      var p := parts.value;
      assert Ready(rows, labels, next, c1, kinds) by {
        TypedNarrow(rows, rows, Elements(eligible) + DepSet(c0), Elements(next) + DepSet(c1), kinds);
      }
      assert (forall i | 0 <= i < |p.xs| :: |p.xs[i]| < |rows|)
             || c1.Keys < c0.Keys
             || CatCount(next, kinds.categorical) < CatCount(eligible, kinds.categorical) by {
        if !kinds.IsNumerical(f) && f in c0 {
          assert f in c0.Keys - c1.Keys;
        }
      }
      assert kinds.IsNumerical(f) ==> NumericalAmong(next, kinds) by {
        if kinds.IsNumerical(f) {
          assert f in next;
        }
      }
      RoutedWithin(p, rows, labels, f);
      r := GrowChildren(rows, labels, p, next, registry, eligible, c0);
      if r.Success? {
        ghost var covers := Covers(classNames, labels);
        BuiltRouted(r.value, p, next, c1, registry.cases, kinds, classNames, covers, rows, labels, f);
        BuiltOnSplit(r.value, p, next, c1, registry.cases, kinds, classNames, covers, rows, f, g);
        assert kinds.IsCategorical(f) || HasThreshold(g);
        BuiltSum(r.value, p, next, c1, registry.cases, kinds, classNames, covers, rows, labels);
      }
    }

    /**
     * Lines 103-112: a categorical choice leaves the eligible list, and a choice that is a registry key
     * appends its dependents and pops its entry.
     */
    method UpdateEligible(eligible: seq<string>, f: string, registry: Registry) returns (next: seq<string>)
      modifies registry
      ensures next == Updated(eligible, f, kinds.categorical, old(registry.cases))
      ensures registry.cases == old(registry.cases) - {f}
    {
      next := eligible;
      if kinds.IsCategorical(f) {
        next := RemoveFirst(next, f);
      }
      if f in registry.cases {
        var d := registry.Pop(f);
        next := next + Names(d);
      } else {
        assert registry.cases - {f} == registry.cases;
      }
    }

    /**
     * Lines 114-122: one child per part of the split, built in order from the same eligible list
     * `next`, each child seeing the registry as the children before it left it. The ghost parameters
     * `parent` and `c0` are the parent's eligible list and registry, for the termination measure.
     */
    method GrowChildren(rows: seq<Row>, labels: seq<Label>, p: Parts, next: seq<string>, registry: Registry,
                        ghost parent: seq<string>, ghost c0: map<string, Dependents>)
      returns (r: Result<seq<Node>, Fault>)
      requires Sound(crit) && |rows| == |labels| && p.Aligned() && Within(p, rows, labels)
      requires Ready(rows, labels, next, registry.cases, kinds)
      requires Submap(registry.cases, c0)
      requires (forall i | 0 <= i < |p.xs| :: |p.xs[i]| < |rows|)
               || registry.cases.Keys < c0.Keys
               || CatCount(next, kinds.categorical) < CatCount(parent, kinds.categorical)
      modifies registry
      decreases |rows|, c0.Keys, CatCount(parent, kinds.categorical), 0
      ensures Submap(registry.cases, old(registry.cases))
      ensures r.Success? ==>
        Built(r.value, p, |p.xs|, next, old(registry.cases), registry.cases, kinds, classNames, Covers(classNames, labels))
      ensures r.Failure? ==> r.error.NoMaximum?
      ensures minImpurityDecrease >= 0.0 && (forall j | 0 <= j < |p.xs| :: |p.xs[j]| > 0) ==> r.Success?
    {
      var childs: seq<Node> := [];
      ghost var c1 := registry.cases;
      ghost var covers := Covers(classNames, labels);
      assert p.xs[..0] == [];
      for i := 0 to |p.xs|
        invariant Submap(registry.cases, c1)
        invariant Built(childs, p, i, next, c1, registry.cases, kinds, classNames, covers)
      {
        ghost var cur := registry.cases;
        ChildReady(rows, labels, p, i, next, c1, cur, kinds);
        var child := GenerateNode(p.xs[i], p.ys[i], Some(p.edges[i]), next, registry);
        if child.Failure? {
          return Failure(child.error);
        }
        BuiltStep(childs, child.value, p, i, next, c1, cur, registry.cases, kinds, classNames, covers);
        childs := childs + [child.value];
      }
      return Success(childs);
    }
  }

  /**
   * The first `k` children of a split: child `j` hangs on edge `j` and holds part `j`, with that part's
   * class counts and majority label; the children are grown from `next` over the pops from `before` to
   * `after`, each is counted when the node's class names cover its labels, none is empty when `next`
   * holds a numerical feature, and together they hold the rows of the first `k` parts.
   */
  ghost predicate Built(cs: seq<Node>, p: Parts, k: nat, next: seq<string>, before: map<string, Dependents>,
                        after: map<string, Dependents>, kinds: Kinds, classNames: seq<Label>, covers: bool)
  {
    && |cs| == k <= |p.xs| && p.Aligned()
    && (forall j | 0 <= j < k ::
          && cs[j].featureValue == Some(p.edges[j]) && cs[j].samples == |p.xs[j]|
          && cs[j].distribution == Distribution(p.ys[j], classNames) && cs[j].classLabel == Majority(p.ys[j], classNames))
    && GrownAll(cs, next, before, after, kinds)
    && (covers ==> forall j | 0 <= j < k :: Counted(cs[j]))
    && (NumericalAmong(next, kinds) ==> forall j | 0 <= j < k :: |p.xs[j]| > 0)
    && SampleSum(cs) == TotalSize(p.xs[..k])
  }

  /** Each part of a split is ready for its own node, whatever the registry has popped meanwhile. */
  lemma ChildReady(rows: seq<Row>, labels: seq<Label>, p: Parts, i: nat, next: seq<string>,
                   c1: map<string, Dependents>, cur: map<string, Dependents>, kinds: Kinds)
    requires Ready(rows, labels, next, c1, kinds) && p.Aligned() && Within(p, rows, labels) && i < |p.xs|
    requires Submap(cur, c1)
    ensures Ready(p.xs[i], p.ys[i], next, cur, kinds)
  {
    SubmapFacts(cur, c1);
    TypedNarrow(rows, p.xs[i], Elements(next) + DepSet(c1), Elements(next) + DepSet(cur), kinds);
  }

  /** One more child, built after the others, extends `Built`. */
  lemma BuiltStep(cs: seq<Node>, c: Node, p: Parts, k: nat, next: seq<string>, c1: map<string, Dependents>,
                  cur: map<string, Dependents>, after: map<string, Dependents>, kinds: Kinds, classNames: seq<Label>, covers: bool)
    requires Built(cs, p, k, next, c1, cur, kinds, classNames, covers) && k < |p.xs|
    requires c.featureValue == Some(p.edges[k]) && c.samples == |p.xs[k]|
    requires c.distribution == Distribution(p.ys[k], classNames) && c.classLabel == Majority(p.ys[k], classNames)
    requires NumericalAmong(next, kinds) ==> |p.xs[k]| > 0
    requires Grown(c, next, cur, after, kinds) && (covers ==> Counted(c))
    requires Submap(cur, c1) && Submap(after, cur)
    ensures Built(cs + [c], p, k + 1, next, c1, after, kinds, classNames, covers) && Submap(after, c1)
  {
    GrownAllStep(cs, c, next, c1, cur, after, kinds);
    ChildSnoc(cs, c);
    assert p.xs[..k + 1][..k] == p.xs[..k];
    assert forall j | 0 <= j < k :: (cs + [c])[j] == cs[j];
  }

  /** All the children of a split that partitions the rows hold all the rows. */
  lemma BuiltSum(cs: seq<Node>, p: Parts, next: seq<string>, before: map<string, Dependents>, after: map<string, Dependents>,
                 kinds: Kinds, classNames: seq<Label>, covers: bool, rows: seq<Row>, labels: seq<Label>)
    requires |rows| == |labels| && p.Aligned() && multiset(Pairs(rows, labels)) == Gather(p.xs, p.ys)
    requires Built(cs, p, |p.xs|, next, before, after, kinds, classNames, covers)
    ensures SampleSum(cs) == |rows|
  {
    GatherSize(p.xs, p.ys);
    assert |multiset(Pairs(rows, labels))| == |rows|;
    assert p.xs[..|p.xs|] == p.xs;
  }

  /** The children of a routed split are children of the node: each holds the rows its edge selects. */
  lemma BuiltRouted(cs: seq<Node>, p: Parts, next: seq<string>, before: map<string, Dependents>, after: map<string, Dependents>,
                    kinds: Kinds, classNames: seq<Label>, covers: bool, rows: seq<Row>, labels: seq<Label>, f: string)
    requires |rows| == |labels| && Routed(p, rows, labels, f)
    requires Built(cs, p, |p.xs|, next, before, after, kinds, classNames, covers)
    ensures forall i | 0 <= i < |cs| :: ChildOf(cs[i], rows, labels, f, classNames)
    ensures |cs| == |p.xs|
  {
    forall i | 0 <= i < |cs| ensures ChildOf(cs[i], rows, labels, f, classNames) {
      assert (p.xs[i], p.ys[i]) == Branch(rows, labels, f, p.edges[i]);
    }
  }

  /** Children built in the order of a split's edges hang on the edges that `OnSplit` describes. */
  lemma BuiltOnSplit(cs: seq<Node>, p: Parts, next: seq<string>, before: map<string, Dependents>, after: map<string, Dependents>,
                     kinds: Kinds, classNames: seq<Label>, covers: bool, rows: seq<Row>, f: string, g: Gain)
    requires Built(cs, p, |p.xs|, next, before, after, kinds, classNames, covers)
    requires kinds.IsCategorical(f) ==>
      && (forall v :: Is(v) in p.edges <==> v in Observed(rows, f))
      && (forall e | e in p.edges :: e.Is?)
      && (forall i, j | 0 <= i < j < |p.edges| :: p.edges[i] != p.edges[j])
    requires kinds.IsNumerical(f) ==> g.Pair? && p.edges == [Below(g.threshold), AtLeast(g.threshold)]
    ensures OnSplit(cs, rows, f, g, kinds)
  {
    if kinds.IsCategorical(f) {
      forall j | 0 <= j < |cs|
        ensures cs[j].featureValue.Some? && cs[j].featureValue.value.Is? && cs[j].featureValue.value.value in Observed(rows, f)
      {
        assert p.edges[j] in p.edges;
      }
      forall v | v in Observed(rows, f) ensures exists j | 0 <= j < |cs| :: cs[j].featureValue == Some(Is(v)) {
        var j :| 0 <= j < |p.edges| && p.edges[j] == Is(v);
        assert cs[j].featureValue == Some(Is(v));
      }
    }
  }

  /** Every part of the split holds rows and labels of the node. */
  predicate Within(p: Parts, rows: seq<Row>, labels: seq<Label>)
  {
    && (forall i | 0 <= i < |p.xs| :: |p.xs[i]| <= |rows|)
    && (forall i, r | 0 <= i < |p.xs| && r in p.xs[i] :: r in rows)
    && (forall i, l | 0 <= i < |p.ys| && l in p.ys[i] :: l in labels)
  }

  lemma RoutedWithin(p: Parts, rows: seq<Row>, labels: seq<Label>, f: string)
    requires |rows| == |labels| && Routed(p, rows, labels, f)
    ensures Within(p, rows, labels)
  {
    forall i | 0 <= i < |p.xs| ensures |p.xs[i]| <= |rows| {
      assert p.xs[i] == Branch(rows, labels, f, p.edges[i]).0;
    }
    forall i, r | 0 <= i < |p.xs| && r in p.xs[i] ensures r in rows {
      assert p.xs[i] == Branch(rows, labels, f, p.edges[i]).0;
    }
    forall i, l | 0 <= i < |p.ys| && l in p.ys[i] ensures l in labels {
      assert p.ys[i] == Branch(rows, labels, f, p.edges[i]).1;
    }
  }

  /**
   * The sizes of the parts of a split on a selected feature: the split succeeds with at least one part;
   * a numerical split leaves fewer rows on each side than the node has; no part is empty for a
   * categorical feature or a numerical one with a threshold; and with a non-negative minimum a
   * numerical gain always has a threshold.
   */
  lemma SplitSizes(crit: Criterion, kinds: Kinds, start: real, rows: seq<Row>, labels: seq<Label>, eligible: seq<string>,
                   f: string, g: Gain, r: Result<Parts, Fault>)
    requires Sound(crit) && |rows| == |labels| && NumericColumns(rows, eligible, kinds) && HasColumn(rows, f)
    requires kinds.IsNumerical(f) ==> NumericColumn(rows, f)
    requires Choice(crit, kinds, start, rows, labels, eligible) == Success(Some((f, g)))
    requires r.Success? ==> Routed(r.value, rows, labels, f) && r.value.Aligned()
    requires kinds.IsCategorical(f) ==> r.Success? && forall v :: Is(v) in r.value.edges <==> v in Observed(rows, f)
    requires kinds.IsCategorical(f) ==> forall i | 0 <= i < |r.value.xs| :: |r.value.xs[i]| > 0
    requires kinds.IsNumerical(f) ==> g.Pair? && r == Success(NumericalSplit(rows, labels, f, g.threshold))
    ensures r.Success? && |r.value.xs| > 0
    ensures kinds.IsCategorical(f) || HasThreshold(g) ==> forall i | 0 <= i < |r.value.xs| :: |r.value.xs[i]| > 0
    ensures kinds.IsNumerical(f) ==> forall i | 0 <= i < |r.value.xs| :: |r.value.xs[i]| < |rows|
    ensures start >= 0.0 ==> kinds.IsCategorical(f) || HasThreshold(g)
  {
    ChosenFacts(crit, kinds, start, rows, labels, eligible, f, g);
    if kinds.IsCategorical(f) {
      var first := rows[0];
      assert first in rows;
      assert first[f] in Observed(rows, f);
    } else {
      NumericalGainFacts(crit, rows, labels, f);
      if g.threshold.Some? {
        NumericalSplitSizes(crit, rows, labels, f, g.threshold.value);
      }
    }
  }

  /** Both sides of a split at a threshold of positive gain hold rows, and fewer than the node. */
  lemma NumericalSplitSizes(crit: Criterion, rows: seq<Row>, labels: seq<Label>, f: string, t: int)
    requires Sound(crit) && |rows| == |labels| && NumericColumn(rows, f)
    requires crit.threshold(rows, labels, f, t) > 0.0
    ensures var xs := NumericalSplit(rows, labels, f, Some(t)).xs;
      |xs| == 2 && forall i | 0 <= i < 2 :: 0 < |xs[i]| < |rows|
  {
    PositiveThresholdSplits(crit, rows, labels, f, t);
  }
}

=== FILE: wrappers.dfy ===
/** Optional values and results with an error, for the exceptions the Python code raises. */
module Wrappers {

  datatype Option<+T> = None | Some(value: T)

  datatype Result<+T, +E> = Success(value: T) | Failure(error: E)

  /** A step that either passes or fails with an error (Python's "returns None or raises"). */
  datatype Outcome<+E> = Pass | Fail(error: E)
}
